=== FILE: README.md ===
# ebizzle, modelled in Dafny

ebizzle is a small command-line tool that deploys applications to AWS
Elastic Beanstalk. It uploads a source bundle to S3, registers an
application version, deploys that version to an environment, and lists
profiles, versions, environment variables and instances. Two generations of
the program are modelled side by side:

- `ebizzle/ebizzle.py`, with `ebizzle/format.py` and `ebizzle/myio.py`. This
  is the later script. It adds the `instances` verb, the `nvdict` output
  format, a per-profile build-deps bucket and a per-profile S3 profile.
- `src/ebizzle.py`, with `src/format.py` and `src/config.py`. This is the
  earlier package. It has one constant bucket, always opens its S3
  connection as `production` (or the first configured profile), and has no
  `instances` verb.

The pieces every run depends on are modelled as pure functions:

- the output renderers;
- the line printer;
- the `app[:version]` token parser;
- profile selection;
- bundle-path and object-key naming;
- the payloads sent to Elastic Beanstalk;
- the environment-variable filter;
- the inventory line.

`main` becomes `Run(args, host)`. Failures are a `panic` (exit 1), a Python
exception (exit 1) or an argparse usage error (exit 2). The two variants
return different things:

- In `ebizzle/ebizzle.py`, every modelled failure is decided before any
  operation completes. The panics of an upload ("Source bundle not found.",
  and the credential and `IndexError` failures of connecting to S3) are
  raised inside `upload_source_bundle`, after it has printed its first
  lines; the model decides them while planning. `Ebizzle.Run` therefore
  returns either the list of operations the run performs, in order, or the
  failure that ends it.
- In `src/ebizzle.py`, a json listing raises after its operation has been
  invoked. `SrcEbizzle.Plan` gives the operations the run sets out to
  perform, or the failure that stops it before any of them completes; as
  above, an upload's panics are raised inside `upload_source_bundle`.
  `SrcEbizzle.Perform` invokes the planned operations until one raises.
  `SrcEbizzle.Run` returns either all of them, or a `Stop` record: the
  operations invoked up to and including the one that raised, and the
  exception. A failure decided while planning, an upload's panic included,
  is recorded with no operation invoked.

The outside world is a `Host` record, with these fields:

- which files exist;
- whether the working directory is a git repository;
- the outcome of `docker/tag_helper.sh` and of `git describe --tags`;
- which S3 objects exist;
- for which profiles the platform refuses to describe the environment
  settings;
- the configuration file's sections, in file order.

Modules:

- `Base`: `Option`, `Result`, Python's `"%s" % None` rendering, and the
  failure kinds with their exit codes.
- `Text`: `str.split` on one character, `str.strip`, and sorting of string
  keys.
- `MyIO`: `ebizzle/myio.py`. It covers line splitting, colour wrapping and
  the colour of each output level.
- `Format`: `ebizzle/format.py`. `SrcFormat`: `src/format.py`.
- `Config`: `src/config.py`, over an in-memory section list.
- `Workflow`: the logic both `ebizzle.py` variants share.
- `Ebizzle` and `SrcEbizzle`: the two `main` functions and their variant
  constants.

`ebizzle/ebizzle.py` imports a `config` module whose file is not part of
this model. It is taken to behave as `src/config.py`. `ebizzle/myio.py` is
the later variant's printer. `src/` imports a `myio` module whose file is
not part of this model. It is taken to behave as `ebizzle/myio.py`.

Two behaviours of the source are modelled as written, because they are the
program's actual behaviour:

- `create --all-profiles` in `ebizzle/ebizzle.py` passes `profile` to
  `upload_source_bundle` (line 400). That variable is assigned only when
  `--all-profiles` is absent (line 392), so the run raises
  `UnboundLocalError` before any upload.
  - `Ebizzle.CreateAllProfilesUnbound` states the failure.
  - `src/ebizzle.py` passes `profiles[0]` instead (line 344).
    `SrcEbizzle.CreateAllProfiles` states what that variant does.
- `src/format.py` calls `json.dumps` (lines 35 and 47) but never imports
  `json`. Every `json` rendering in that variant therefore raises
  `NameError`. `SrcFormat.PrintDict` and `SrcFormat.PrintList` return that
  error. `profiles -f json` raises on its only listing. `list -f json` raises
  on the first profile's listing. `env -f json` raises on the first profile
  whose settings the platform describes.

`ebizzle/ebizzle.py` also indexes the first configured profile when it is
imported (line 26). With no profiles configured, every invocation of that
variant fails with `IndexError`, even `profiles`. `Ebizzle.Run` states this.

## Model

| member | source | states |
|---|---|---|
| Text.Split | ebizzle/ebizzle.py:376 | `str.split` on one character gives one more piece than there are separators, none of them holds the separator, and joining them back gives the input |
| Text.SplitJoin | ebizzle/ebizzle.py:376 | splitting the join of separator-free pieces gives back exactly those pieces |
| Text.Strip | ebizzle/ebizzle.py:93 | `strip()` keeps a contiguous middle slice that neither starts nor ends with whitespace, and removes only whitespace around it |
| Text.StripPadded | ebizzle/ebizzle.py:102 | stripping whitespace-padded trimmed text gives exactly that text |
| Text.StripIdempotent | ebizzle/ebizzle.py:102 | stripping twice is stripping once |
| Text.Sorted | ebizzle/format.py:29 | `sorted` of the keys holds each key exactly once, in strictly ascending order |
| MyIO.Print | ebizzle/myio.py:8-25 | no message prints one empty line; a lone message prints one line per newline-separated piece; several messages print one line each, unsplit; each line is the piece wrapped in the colour escape, or verbatim with no colour |
| MyIO.UnpaintPaint | ebizzle/myio.py:22-25 | removing the colour escape from a printed line gives back the message |
| MyIO.EchoOneRoundTrip | ebizzle/myio.py:13-17 | the lines echoed for one message, joined with newlines, are that message |
| MyIO.Log | ebizzle/myio.py:28-41 | `echo` prints uncoloured; `success` uses code 32, `error` 31 and `info` 34 |
| MyIO.OutputOneLineEach | ebizzle/myio.py:13-25 | calls whose messages contain no newline print one line each |
| MyIO.EchoedVerbatim | ebizzle/myio.py:13-17 | echoing newline-free messages prints exactly those messages, one line each, in order |
| Format.AllIsClosed | ebizzle/format.py:6-20 | the format names are exactly text, bash, json, dockerenv and nvdict, and the default is text |
| Format.Effective | ebizzle/format.py:26 | a missing or empty format means text; any other name is kept |
| Format.Keys | ebizzle/format.py:29 | the keys are iterated once each, in ascending order |
| Format.Entries | ebizzle/format.py:28-36 | one echoed line per key, in ascending key order, shaped with the format's prefix and separator |
| Format.NameValueEntries | ebizzle/format.py:41-42 | one `{"name": "k", "value": "v"},` line per key, in ascending key order |
| Format.PrintDict | ebizzle/format.py:23-43 | text gives `k = v`, dockerenv `k=v`, bash `export k=v`; json is one JSON document; nvdict is `[`, the name/value lines, then `]`; an unknown format prints nothing |
| Format.PrintList | ebizzle/format.py:46-55 | text echoes the items in their given order; json is one JSON array; any other format prints nothing |
| Format.PrintProfile | ebizzle/format.py:58-66 | text gives `[profile:p]` at info level, bash gives `# profile: p`, any other format nothing; `src/format.py` prints the same header |
| Format.DockerEnvLines | ebizzle/format.py:31-33 | the dockerenv lines are the `k=v` assignments of the keys in sorted order |
| Format.ReadEntries | ebizzle/format.py:31-33 | reading back the `k=v` lines written for keys of a dictionary recovers exactly those keys, each with its dictionary value |
| Format.DockerEnvTextsReadBack | ebizzle/format.py:31-33 | reading the echoed dockerenv messages back as `k=v` assignments gives the original dictionary whenever no key contains `=` |
| Format.DockerEnvReadsBack | ebizzle/format.py:31-33 | reading the printed dockerenv lines back as `k=v` assignments gives the original dictionary, when no key holds `=` or a newline and no value holds a newline |
| Format.NewlineValueSplits | ebizzle/format.py:31-33 | a value holding a newline is printed on two lines, so reading the dockerenv output back yields a different dictionary: `A` maps to `x\nB=y`, and the read-back has `A=x` and a spurious `B=y` |
| SrcFormat.All | src/format.py:16-17 | the earlier formatter accepts exactly text, bash, json and dockerenv, with no nvdict |
| SrcFormat.PrintDict | src/format.py:20-35 | json fails with NameError, and no other format does; text, dockerenv and bash print one sorted line per key; an unknown format prints nothing |
| SrcFormat.PrintList | src/format.py:38-47 | json fails with NameError; text echoes the items in order; other formats print nothing |
| SrcFormat.PrintDictAgrees | src/format.py:20-33 | except for json and nvdict, both formatters print the same dictionary lines |
| SrcFormat.PrintListAgrees | src/format.py:38-45 | except for json, both formatters print the same list lines |
| Config.ProfileNames | src/config.py:41-44 | the profile names are the section names in file order |
| Config.ConfiguredIffFound | src/config.py:41-44 | a profile is listed exactly when some section carries its name |
| Config.GetCredentials | src/config.py:30-38 | the credentials are the access key and the secret key of the profile's section, in that order; a missing section or option is an error |
| Config.SetProfiles | src/config.py:9-14 | the selection is accepted exactly when every name is configured, and is then what `get_profiles` returns; a rejected call raises AssertionError and leaves the state unchanged |
| Config.InitialSelection | src/config.py:4-18 | before any assignment the selection is `["test"]` |
| Config.SetNoProfiles | src/config.py:10-14 | selecting no profiles always succeeds |
| Config.RejectedKeepsEarlier | src/config.py:9-18 | a rejected selection leaves an earlier accepted one in place |
| Workflow.AppVersion | ebizzle/ebizzle.py:77-102 | outside a git repo the run panics; a successful tag helper wins; otherwise `git describe` is used; either output is stripped; inside a repo with neither, the run panics with "Can't obtain app's version. Do you tag, bro?"; `src/ebizzle.py` derives it the same way |
| Workflow.TokenShape | ebizzle/ebizzle.py:375-382 | no colon is a bare name; exactly one colon is a pair whose parts rebuild the token; two or more colons are an unpacking error |
| Workflow.TokenRoundTrip | ebizzle/ebizzle.py:376 | splitting `app:version` gives back the app and the version |
| Workflow.ResolveTarget | ebizzle/ebizzle.py:375-387 | no token gives no app and no version; a pair gives its parts; more colons raise ValueError; a bare name has no version for the unversioned verbs (list, env and instances here; list and env in `src/ebizzle.py`) and the derived version otherwise |
| Workflow.SelectProfiles | ebizzle/ebizzle.py:389-397 | `--all-profiles` selects every configured profile in file order; otherwise the named profile alone, which must be configured or the run panics |
| Workflow.ResolveBundle | ebizzle/ebizzle.py:136-151 | a non-empty explicit path is used when it exists, and the run panics when it does not; a missing or empty path falls back to the first existing of `target/<app>-<version>.zip` and `target/source-bundle.zip`, and the run panics when neither exists |
| Workflow.ObjectKeyFolder | ebizzle/ebizzle.py:162-165 | the object key lies in the application's folder `<app>/` |
| Workflow.ConnectionProfile | src/ebizzle.py:85-89 | a configured profile is used as given; an unconfigured one is replaced by the first configured profile |
| Workflow.S3Credentials | ebizzle/ebizzle.py:105-111 | with no profile configured the lookup raises IndexError; otherwise the S3 connection gets exactly the credentials of the substituted profile, or the credential lookup's error |
| Workflow.PlanUpload | ebizzle/ebizzle.py:129-178 | the upload succeeds exactly when the bundle resolves and the connection has credentials; otherwise its error is the bundle panic, or else the credential failure; the key is `<app>/<app>-<version>.zip` in the chosen bucket; an existing key without overwrite is reused; the bundle is written exactly when the run is live and the key is not reused |
| Workflow.SearchLog | ebizzle/ebizzle.py:139-148 | each fallback path tried before the chosen one is reported as not found, and the chosen one as found; the log ends at the first path that exists, or, with none found, reports every path as not found |
| Workflow.SearchLogNamesChoice | ebizzle/ebizzle.py:142-146 | the last search message names the path that was chosen |
| Workflow.UploadOutput | ebizzle/ebizzle.py:133-176 | the upload prints the profile header and the upload title; without a given path, then the "location not given" note and the search log; then the bucket line before the key line; it ends with the key, the "already exists" note, or the read-only note, with no other line |
| Workflow.UploadOutputNamesBundle | ebizzle/ebizzle.py:139-159 | without a given path, the line just before the bucket line reports the bundle the upload settled on as found |
| Workflow.BundleIsChoice | ebizzle/ebizzle.py:139-153 | without a given path, a planned upload takes the first conventional path that exists |
| Workflow.LogEndsBeforeBucket | ebizzle/ebizzle.py:139-159 | without a given path, the last search line names the found bundle and the bucket line follows it |
| Workflow.CreateVersionPayload | ebizzle/ebizzle.py:188-194 | the version payload names the application, the version as label and description, the bucket and the key, and nothing else |
| Workflow.DeployPayload | ebizzle/ebizzle.py:214-217 | the deploy payload sets the environment name to the app and the version label to the version |
| Workflow.ReadOnlyReport | ebizzle/ebizzle.py:201-204 | the read-only report is a title, then one `  k => v` line per payload entry, in iteration order |
| Workflow.ReportListed | src/ebizzle.py:172-175 | every payload entry appears in the read-only output |
| Workflow.CreateVersionRequests | src/ebizzle.py:152-175 | registration prints the header first; read-only sends nothing and lists every payload entry; otherwise exactly one request is sent, last |
| Workflow.DeployVersionRequests | src/ebizzle.py:178-198 | deployment prints the header first; read-only sends nothing and lists both payload entries; otherwise exactly one request is sent, last |
| Workflow.ListingFor | src/ebizzle.py:216-220 | with no app, `list` lists applications; otherwise it lists that app's versions |
| Workflow.EnvironmentName | ebizzle/ebizzle.py:273-274 | the environment name is the version, or the app when there is no version |
| Workflow.CreateVersionMutatesIffSends | ebizzle/ebizzle.py:196-204 | registering a version changes the platform exactly when its events send a request, which is exactly when the run is live |
| Workflow.DeployVersionMutatesIffSends | ebizzle/ebizzle.py:219-227 | a deployment changes the platform exactly when its events send a request, which is exactly when the run is live |
| Workflow.EnvVarsLastWins | ebizzle/ebizzle.py:292-295 | a variable is kept exactly when some setting in the application-environment namespace defines it; its value is that of the last such setting |
| Workflow.Inventory | ebizzle/ebizzle.py:305-324 | a refused resource request prints the service's error message alone; otherwise `[app]` first, then one inventory line per instance, in order |
| Workflow.InventoryFields | ebizzle/ebizzle.py:323-324 | an inventory line splits on tabs into `<app>-<id>`, `ansible_ssh_host=<ip>` and `ansible_ssh_user=ec2-user` |
| Workflow.Registrations | ebizzle/ebizzle.py:404-409 | one version registration per selected profile, in order, each with that profile's bucket and the uploaded key |
| Workflow.PerProfile | ebizzle/ebizzle.py:415-423 | `list`, `env` and `instances` run once per selected profile, in order, with the parsed app and version |
| Ebizzle.BuildDepsBucket | ebizzle/ebizzle.py:15-32 | the bucket is `atlas-build-deps` exactly for `atlas`, and `dbz-build-deps` for every other profile |
| Ebizzle.S3Profile | ebizzle/ebizzle.py:22-36 | `atlas` keeps its own S3 profile; every other profile uses the first configured one |
| Ebizzle.Actions | ebizzle/ebizzle.py:39-56 | the six verbs create, deploy, list, profiles, env and instances |
| Ebizzle.CheckArgs | ebizzle/ebizzle.py:328-364 | the arguments are accepted exactly when the verb and the format are among the choices and `--profile` and `--all-profiles` are not both given; a rejection exits with status 2 |
| Ebizzle.Run | ebizzle/ebizzle.py:26 | with no profile configured, every invocation fails with IndexError at import |
| Ebizzle.Dispatch | ebizzle/ebizzle.py:399-423 | only selected profiles are touched; read-only changes nothing; only create and deploy can fail after selection |
| Ebizzle.CreateOne | ebizzle/ebizzle.py:399-409 | a single-profile create uploads into that profile's bucket through its S3 profile, then registers the version once with the uploaded key, both under that profile |
| Ebizzle.UsageIffRejected | ebizzle/ebizzle.py:328-364 | a run ends in a usage error, with status 2, exactly when argparse rejects the arguments |
| Ebizzle.ProfilesComesFirst | ebizzle/ebizzle.py:371-373 | `profiles` lists the profiles before the token is parsed and before any profile is checked |
| Ebizzle.UnknownProfilePanics | ebizzle/ebizzle.py:392-395 | an unconfigured profile without `--all-profiles` panics with `Profile not found: <p>`, status 1 |
| Ebizzle.DeployToAllRefused | ebizzle/ebizzle.py:410-413 | `deploy --all-profiles` is refused before any call |
| Ebizzle.DeployOneProfile | ebizzle/ebizzle.py:410-414 | a successful deploy is one deployment under the selected profile, with the parsed app and version |
| Ebizzle.CreateAllProfilesUnbound | ebizzle/ebizzle.py:389-403 | `create --all-profiles` fails with UnboundLocalError |
| Ebizzle.CreateOneProfile | ebizzle/ebizzle.py:399-409 | a successful create uploads once and registers once, under the named profile, with that profile's bucket |
| Ebizzle.TouchedProfilesConfigured | ebizzle/ebizzle.py:389-423 | every operation of a successful run names a configured profile |
| Ebizzle.ReadOnlyChangesNothing | ebizzle/ebizzle.py:366-367 | with `--read-only`, no operation of a run changes anything |
| Ebizzle.ReadVerbsPerProfile | ebizzle/ebizzle.py:415-423 | `list`, `env` and `instances` run once for each selected profile |
| Ebizzle.ListProfilesOutput | ebizzle/ebizzle.py:264-267 | `profiles` in text echoes the section names in order; in json it prints them as one array; in any other format it prints nothing |
| Ebizzle.ListVersionsOutput | ebizzle/ebizzle.py:245-261 | in text, the profile header, then one line per name; in json, one array; in bash, only the `# profile: p` comment; in dockerenv and nvdict, nothing |
| Ebizzle.DescribeEnvOutput | ebizzle/ebizzle.py:270-297 | the profile header, then the filtered variables as a dictionary, or the service error message |
| Ebizzle.EnvFileRoundTrip | ebizzle/ebizzle.py:292-297 | reading the printed `env -f dockerenv` lines back gives exactly the filtered variables, when no name holds `=` or a newline and no value holds a newline |
| SrcEbizzle.Actions | src/ebizzle.py:21-36 | the five verbs create, deploy, list, profiles and env, with no instances |
| SrcEbizzle.CheckArgs | src/ebizzle.py:272-308 | accepted exactly when the verb and the format are among this variant's choices and the profile options are not both given; rejection exits with status 2 |
| SrcEbizzle.Run | src/ebizzle.py:313-364 | a successful plan is carried out by invoking it, and outside json the run is exactly the plan; a run that succeeds invokes exactly the planned operations; a failure decided while planning, an upload's panic included, stops it before any operation completes and is recorded with none invoked; a stop after some operation is the NameError of a json `profiles`, `list` or `env` |
| SrcEbizzle.Raises | src/ebizzle.py:216-268 | an operation raises exactly when it is a profile or version listing, or an environment description the platform answers, rendered as json; the exception is NameError |
| SrcEbizzle.FirstRaise | src/ebizzle.py:359-364 | the position of the first operation that raises: every operation before it completes |
| SrcEbizzle.Perform | src/ebizzle.py:359-364 | the operations run to the end exactly when none raises; otherwise the run stops at the first that raises, after invoking it and all before it |
| SrcEbizzle.PlannedRaises | src/ebizzle.py:313-364 | only a json `profiles`, `list` or `env` plans an operation that can raise |
| SrcEbizzle.DispatchRaises | src/ebizzle.py:343-364 | only a json `list` or `env` plans an operation that raises; nothing `create` or `deploy` invokes raises |
| SrcEbizzle.ProfilesJsonRaises | src/ebizzle.py:235-238 | `profiles -f json` invokes the profile listing, which raises NameError, status 1 |
| SrcEbizzle.ListJsonStopsAtFirst | src/ebizzle.py:359-361 | `list -f json` invokes the first profile's listing, which raises, so no later profile is listed |
| SrcEbizzle.EnvJsonStops | src/ebizzle.py:241-268 | `env -f json` succeeds exactly when the platform refuses every profile; otherwise it stops at the first profile it describes, after the profiles it was refused before it |
| SrcEbizzle.PlanDispatches | src/ebizzle.py:313-364 | past the argument check, a resolved target and a selection, planning any verb but `profiles` is its dispatch |
| SrcEbizzle.PlanOkDispatches | src/ebizzle.py:313-364 | a successful plan for a verb other than `profiles` passed the argument check, resolved its target, selected its profiles and is its dispatch |
| SrcEbizzle.PlansAgree | src/ebizzle.py:313-364 | for deploy, list, profiles and env, outside nvdict and with profiles configured, both variants plan the same operations or fail the same way |
| SrcEbizzle.InstancesRejected | src/ebizzle.py:21-36 | `instances` is a usage error in this variant, raised before anything is invoked |
| SrcEbizzle.Dispatch | src/ebizzle.py:343-364 | only selected profiles are touched; read-only plans nothing that changes the platform; planning fails after selection only for create and deploy; create and deploy plan only uploads, registrations and deployments; list and env plan only listings and descriptions, each with the `-f` format |
| SrcEbizzle.CreateAll | src/ebizzle.py:343-353 | with no profile selected it fails with IndexError; otherwise it fails exactly when the upload does, with its error; on success it uploads once, under the first profile, to `dbz-build-deps` through the default connection, then registers the version under each selected profile, in order, with the uploaded key; it plans nothing but the upload and the registrations |
| SrcEbizzle.CreateSteps | src/ebizzle.py:344-353 | one upload under the first profile, then one registration per selected profile, in order, with the uploaded key, and nothing else; every operation names a selected profile; in a read-only run, none of them changes anything unless the bundle is to be stored |
| SrcEbizzle.CreatePerformed | src/ebizzle.py:343-353 | a `create` whose target, profiles and upload succeed runs to completion, invoking the upload under the first profile and then one registration per selected profile |
| SrcEbizzle.DeployPerformed | src/ebizzle.py:354-358 | a `deploy` of a configured profile whose target resolves runs to completion, invoking exactly one deployment of that profile |
| SrcEbizzle.CreateAllProfiles | src/ebizzle.py:343-353 | create uploads once under the first selected profile into `dbz-build-deps`, then registers the version under every selected profile with that bucket |
| SrcEbizzle.CreateAllProfilesEmpty | src/ebizzle.py:333-345 | `create --all-profiles` with no profile configured fails with IndexError before invoking anything |
| SrcEbizzle.TouchedProfilesConfigured | src/ebizzle.py:333-364 | every operation of a successful run names a configured profile |
| SrcEbizzle.ReadOnlyChangesNothing | src/ebizzle.py:310-311 | with `--read-only`, no operation of a run changes anything |
| SrcEbizzle.AgreesWithLaterScript | src/ebizzle.py:313-364 | for deploy, list, profiles and env, outside nvdict and json and with profiles configured, both variants invoke the same operations or fail the same way before invoking any |
| SrcEbizzle.ListProfilesOutput | src/ebizzle.py:235-238 | `profiles` fails with NameError exactly for json |
| SrcEbizzle.ListProfilesAgrees | src/ebizzle.py:235-238 | outside json, both variants list profiles alike |
| SrcEbizzle.DescribeEnvOutput | src/ebizzle.py:241-268 | a json rendering of the variables fails with NameError; a service error prints the header and the message |
| SrcEbizzle.DescribeEnvAgrees | src/ebizzle.py:241-268 | outside json and nvdict, both variants describe an environment alike |

## Left out

- Subprocess calls (`git status`, `git describe`, `docker/tag_helper.sh`) are not run. Their outcomes are fields of `Host`.
- boto connections and calls to S3, Elastic Beanstalk and EC2 are not modelled. Region selection, response unpacking and the credential lookups in `get_beanstalk` and `get_ec2` are left out too. A run yields the planned `Invocation`s. The responses the renderers need (version labels, option settings, instances) are parameters.
- `Workflow.CreateVersionRequests`: a `BotoServerError` from a live request is printed as an error. That path is not modelled, because the request is external.
- `Workflow.DeployVersionRequests`: the same applies to a failed live deployment.
- `Ebizzle.CheckArgs`: argparse's exact messages, and which of several errors it reports first, are left out. Only the accept-or-reject decision is modelled, with exit status 2.
- `Workflow.PlanUpload`: `os.path.expanduser` is not applied to the bundle path, because home-directory lookup is environment I/O.
- `json.dumps` is an opaque `JsonDoc` value. Its escaping and key order are left out.
- Reading `~/.ebizzle/config` with ConfigParser is not modelled. Its parse is a `Store`, a sequence of sections. ConfigParser would merge repeated sections and lower-case option names. It also supplies a `DEFAULT` section's options to every section. None of this is modelled: the store is taken as already parsed.
- Python dict iteration order in the read-only payload report is unspecified. It is a parameter, required to list each payload key exactly once.
- The global `READ_ONLY` is passed as a field of the parsed arguments.
- Printing and `sys.exit` are not performed. Output is a sequence of emitted calls or printed lines, and an exit is a `Failure`.
- `_print` on a non-string lone message is not modelled, because every caller passes strings.
- ConfigParser's `%` interpolation of option values is not modelled (`src/config.py:35-36` reads credentials with `get`). A credential holding `%` is taken verbatim, where ConfigParser would expand it or raise.
- `Workflow.UploadOutput`: the lines an upload prints before it panics are not modelled. A panic during the bundle search (`ebizzle/ebizzle.py:133-151`) follows the profile header, the upload title and the search messages. The model keeps only the failure.
- `SrcEbizzle.Run`: a failed upload is recorded as `Stop([], failure)`, not as an invoked `upload_source_bundle`. The panic "Source bundle not found." (`src/ebizzle.py:124`) and the failures of connecting to S3 (`src/ebizzle.py:128`) are raised inside that function, after it has printed its first lines (`src/ebizzle.py:106-121`). The model decides them while planning.
- `Ebizzle.Run`: the same holds for the later script. An upload's panic (`ebizzle/ebizzle.py:151`, `ebizzle/ebizzle.py:155`) is returned as the run's failure, and the upload is not listed as an operation.
- `SrcEbizzle.Raises`: how `env -f json` behaves does not depend on the variables described. The model therefore takes only the platform's refusal of a profile from `Host`, not its settings.

=== FILE: base.dfy ===
/** Optional values and results shared by every module of the model.

    `Option<string>` doubles as Python's "a str or None": `Show` renders it
    the way the `%s` formatting operator does, so a missing application or
    version prints as the word None.
 */
module Base {

  datatype Option<+T> = None | Some(value: T) {
    function GetOr(default: T): T {
      match this
      case Some(v) => v
      case None => default
    }
  }

  datatype Result<+T, +E> = Ok(value: T) | Err(error: E) {
    predicate IsFailure() {
      Err?
    }

    function PropagateFailure<U>(): Result<U, E>
      requires Err?
    {
      Err(error)
    }

    function Extract(): T
      requires Ok?
    {
      value
    }
  }

  /** `"%s" % x` for x a str or None. */
  function Show(x: Option<string>): string {
    match x
    case Some(s) => s
    case None => "None"
  }

  /** How a run of the tool ends abnormally: `panic` (an error line, then exit
      status 1), an uncaught Python exception (traceback, status 1), or an
      argument rejected by the command-line parser (usage message, status 2). */
  datatype Failure = Panic(message: string) | Raised(exception: string) | Usage(message: string) {
    function ExitCode(): nat {
      if Usage? then 2 else 1
    }
  }
}

=== FILE: config.dfy ===
/** The profile store of src/config.py over an in-memory configuration: the
    sections of the per-user config file, in file order, each a profile name
    with its options. Besides lookups it keeps one piece of state, the list of
    selected profiles, which may only name configured sections.
 */
module Config {
  import opened Base

  datatype Section = Section(name: string, options: map<string, string>)

  /** The parsed configuration file: its sections in file order. */
  type Store = seq<Section>

  const DefaultProfile: string := "test"
  const AccessKeyOption: string := "aws_access_key_id"
  const SecretKeyOption: string := "aws_secret_access_key"

  /** `get_profile_names()`: the section names, in file order. */
  function ProfileNames(store: Store): (names: seq<string>)
    ensures |names| == |store|
    ensures forall i :: 0 <= i < |store| ==> names[i] == store[i].name
  {
    if |store| == 0 then [] else [store[0].name] + ProfileNames(store[1..])
  }

  /** The first section called `name`. */
  function Find(store: Store, name: string): (r: Option<Section>)
    ensures r.Some? ==> r.value in store && r.value.name == name
    ensures r.None? <==> forall i :: 0 <= i < |store| ==> store[i].name != name
  {
    if |store| == 0 then None
    else if store[0].name == name then Some(store[0])
    else Find(store[1..], name)
  }

  /** A profile is configured exactly when a section carries its name. */
  lemma {:induction false} ConfiguredIffFound(store: Store, name: string)
    ensures name in ProfileNames(store) <==> Find(store, name).Some?
  {
    var names := ProfileNames(store);
    if name in names {
      var i :| 0 <= i < |names| && names[i] == name;
      assert store[i].name == name;
    }
    if Find(store, name).Some? {
      var i :| 0 <= i < |store| && store[i].name == name;
      assert names[i] == name;
    }
  }

  datatype Credentials = Credentials(key: string, secret: string)

  /** `get_credentials(profile)`: the access key and the secret key of the
      profile's section, in that order. ConfigParser raises when the section or
      either option is missing; the access key is read first. */
  function GetCredentials(store: Store, profile: string): (r: Result<Credentials, Failure>)
    ensures r.Ok? <==> (
      && Find(store, profile).Some?
      && AccessKeyOption in Find(store, profile).value.options
      && SecretKeyOption in Find(store, profile).value.options)
    ensures r.Ok? ==>
      var s := Find(store, profile).value;
      r.value == Credentials(s.options[AccessKeyOption], s.options[SecretKeyOption])
    ensures Find(store, profile).None? ==> r == Err(Raised("NoSectionError: No section: '" + profile + "'"))
  {
    match Find(store, profile)
    case None => Err(Raised("NoSectionError: No section: '" + profile + "'"))
    case Some(section) =>
      if AccessKeyOption !in section.options then
        Err(Raised("NoOptionError: No option '" + AccessKeyOption + "' in section: '" + profile + "'"))
      else if SecretKeyOption !in section.options then
        Err(Raised("NoOptionError: No option '" + SecretKeyOption + "' in section: '" + profile + "'"))
      else Ok(Credentials(section.options[AccessKeyOption], section.options[SecretKeyOption]))
  }

  /** The module-level list of selected profiles. */
  datatype Selection = Selection(profiles: seq<string>)

  /** What the module holds before any `set_profiles` call. */
  const Initial: Selection := Selection([DefaultProfile])

  /** `get_profiles()`. */
  function GetProfiles(s: Selection): seq<string> {
    s.profiles
  }

  /** The state after a `set_profiles` call, and the exception it raised, if any. */
  datatype Attempt = Attempt(state: Selection, error: Option<Failure>)

  /** `set_profiles(profiles)`: asserts every name is a configured section
      before assigning, so a failed call leaves the selection as it was. */
  function SetProfiles(s: Selection, profiles: seq<string>, store: Store): (r: Attempt)
    ensures r.error.None? <==> forall i :: 0 <= i < |profiles| ==> profiles[i] in ProfileNames(store)
    ensures r.error.None? ==> GetProfiles(r.state) == profiles
    ensures r.error.Some? ==> r.state == s && r.error.value == Raised("AssertionError")
  {
    if forall i :: 0 <= i < |profiles| ==> profiles[i] in ProfileNames(store)
    then Attempt(Selection(profiles), None)
    else Attempt(s, Some(Raised("AssertionError")))
  }

  /** Before any assignment the selection is the default profile alone,
      whether or not the file configures it. */
  lemma InitialSelection()
    ensures GetProfiles(Initial) == ["test"]
  {
  }

  /** The empty selection is always accepted. */
  lemma SetNoProfiles(s: Selection, store: Store)
    ensures SetProfiles(s, [], store) == Attempt(Selection([]), None)
  {
  }

  /** A rejected selection does not disturb an earlier accepted one. */
  lemma RejectedKeepsEarlier(s: Selection, good: seq<string>, bad: seq<string>, store: Store)
    requires SetProfiles(s, good, store).error.None?
    requires exists i :: 0 <= i < |bad| && bad[i] !in ProfileNames(store)
    ensures GetProfiles(SetProfiles(SetProfiles(s, good, store).state, bad, store).state) == good
  {
  }
}

=== FILE: ebizzle.dfy ===
/** The main routine of ebizzle/ebizzle.py: argument checking, dispatch on the
    verb, and the operations it invokes, in order. This variant has the
    `instances` verb, the nvdict format, and a storage bucket and storage
    profile chosen per deployment profile. It reads the profile names when
    the script is loaded, so a configuration without sections fails before
    anything else happens.
 */
module Ebizzle {
  import opened Base
  import Text
  import Config
  import Format
  import opened MyIO
  import opened Workflow

  const AtlasProfile: string := "atlas"
  const AtlasBucket: string := "atlas-build-deps"
  const DefaultBucket: string := "dbz-build-deps"

  const ImportFailure: Failure := Raised("IndexError: list index out of range")
  const ProfileUnbound: Failure := Raised("UnboundLocalError: local variable 'profile' referenced before assignment")
  const NoDeployToAll: Failure := Panic("Nope, sorry: won't deploy to all profiles. Not happening. Nope.")

  /** `get_build_deps_bucket(profile)`: the atlas profile has its own bucket. */
  function BuildDepsBucket(profile: string): (b: string)
    ensures b == "atlas-build-deps" <==> profile == "atlas"
    ensures b == "dbz-build-deps" <==> profile != "atlas"
  {
    if profile == AtlasProfile then AtlasBucket else DefaultBucket
  }

  /** `get_s3_profile(profile)`: atlas stores under its own profile, every
      other profile under `first`, the first configured profile. */
  function S3Profile(profile: string, first: string): (p: string)
    ensures profile == "atlas" ==> p == "atlas"
    ensures profile != "atlas" ==> p == first
  {
    if profile == AtlasProfile then AtlasProfile else first
  }

  /** `Action.all()`: the verbs this script accepts. */
  function Actions(): (r: seq<Action>)
    ensures |r| == 6
    ensures Create in r && Deploy in r && List in r && Profiles in r && Env in r && Instances in r
  {
    [Create, Deploy, List, Profiles, Env, Instances]
  }

  /** The verbs that do not derive a version from the repository. */
  function Unversioned(): set<Action> {
    {List, Env, Instances}
  }

  /** What the argument parser rejects: a verb or a format outside its
      choices, or `-p` together with `-a`. It reports the problem and exits
      with status 2. */
  function CheckArgs(args: Args): (r: Option<Failure>)
    ensures r.None? <==>
      && args.action in Actions()
      && (args.format.None? || args.format.value in Format.All())
      && !(args.profile.Some? && args.allProfiles)
    ensures r.Some? ==> r.value.Usage? && r.value.ExitCode() == 2
  {
    if args.action !in Actions() then Some(Usage("argument action: invalid choice: '" + args.action.Name() + "'"))
    else if args.format.Some? && args.format.value !in Format.All() then
      Some(Usage("argument -f/--format: invalid choice: '" + args.format.value + "'"))
    else if args.profile.Some? && args.allProfiles then
      Some(Usage("argument -a/--all-profiles: not allowed with argument -p/--profile"))
    else None
  }

  /** `main()`: the operations one run invokes, in order, or how it fails.
      Every failure is decided before any operation completes. The panics of
      the upload a `create` starts with are raised inside
      `upload_source_bundle`, after its first lines; they are planned here. */
  function Run(args: Args, host: Host): (r: Result<seq<Invocation>, Failure>)
    ensures |host.store| == 0 ==> r == Err(ImportFailure)
  {
    if |host.store| == 0 then Err(ImportFailure)
    else match CheckArgs(args)
    case Some(failure) => Err(failure)
    case None =>
      if args.action == Profiles then Ok([ListProfiles(FormatArg(args))])
      else
        var target :- ResolveTarget(args.app, args.action, Unversioned(), host);
        var profiles :- SelectProfiles(args, host.store);
        Dispatch(args, host, target, profiles)
  }

  /** The verb-specific tail of `main()`, once the target and the profiles
      are settled: every operation it invokes works under one of `profiles`,
      and read-only it invokes nothing that changes the platform. */
  function Dispatch(args: Args, host: Host, target: Target, profiles: seq<string>): (r: Result<seq<Invocation>, Failure>)
    requires args.action != Profiles && |host.store| > 0
    requires !args.allProfiles ==> |profiles| == 1
    ensures r.Ok? ==> forall i :: 0 <= i < |r.value| ==> ProfileOf(r.value[i]).Some? && ProfileOf(r.value[i]).value in profiles
    ensures r.Ok? && args.readOnly ==> forall i :: 0 <= i < |r.value| ==> !Mutates(r.value[i], true)
    ensures r.Err? ==> args.action in {Create, Deploy} && !r.error.Usage?
  {
    if args.action == Create then
      if args.allProfiles then Err(ProfileUnbound)
      else CreateOne(args, host, target, profiles[0])
    else if args.action == Deploy then
      if args.allProfiles then Err(NoDeployToAll)
      else Ok([DeployVersion(profiles[0], target.app, target.version)])
    else Ok(PerProfile(args.action, profiles, target, FormatArg(args)))
  }

  /** `create` under the `-p` profile: upload the bundle to that profile's
      bucket, connecting as its storage profile, then register the version
      under it from the uploaded key. */
  function CreateOne(args: Args, host: Host, target: Target, profile: string): (r: Result<seq<Invocation>, Failure>)
    requires |host.store| > 0
    ensures r.Ok? ==>
      var first := Config.ProfileNames(host.store)[0];
      var upload := PlanUpload(args.sourceBundle, target.app, target.version, host, BuildDepsBucket(profile), S3Profile(profile, first), args.readOnly, false);
      && upload.Ok?
      && r.value == [UploadSourceBundle(profile, upload.value),
                     CreateVersion(profile, target.app, target.version, BuildDepsBucket(profile), upload.value.key)]
    ensures r.Ok? ==> forall i :: 0 <= i < |r.value| ==> ProfileOf(r.value[i]) == Some(profile)
    ensures r.Ok? && args.readOnly ==> forall i :: 0 <= i < |r.value| ==> !Mutates(r.value[i], true)
    ensures r.Err? ==> !r.error.Usage?
  {
    var first := Config.ProfileNames(host.store)[0];
    var bundle :- PlanUpload(args.sourceBundle, target.app, target.version, host,
                             BuildDepsBucket(profile), S3Profile(profile, first), args.readOnly, false);
    Ok([UploadSourceBundle(profile, bundle), CreateVersion(profile, target.app, target.version, BuildDepsBucket(profile), bundle.key)])
  }

  /** Past the argument check, a run other than `profiles` resolves the target,
      selects the profiles, and dispatches. */
  lemma RunDispatches(args: Args, host: Host)
    requires |host.store| > 0 && CheckArgs(args).None? && args.action != Profiles
    requires ResolveTarget(args.app, args.action, Unversioned(), host).Ok?
    requires SelectProfiles(args, host.store).Ok?
    ensures Run(args, host) == Dispatch(args, host, ResolveTarget(args.app, args.action, Unversioned(), host).value,
                                        SelectProfiles(args, host.store).value)
  {
  }

  /** A run that gets past the argument check and selects profiles and a
      target ends as its dispatch does; otherwise it invokes nothing. */
  lemma RunOkDispatches(args: Args, host: Host)
    requires Run(args, host).Ok? && args.action != Profiles
    ensures |host.store| > 0 && CheckArgs(args).None?
    ensures ResolveTarget(args.app, args.action, Unversioned(), host).Ok?
    ensures SelectProfiles(args, host.store).Ok?
    ensures Run(args, host) == Dispatch(args, host, ResolveTarget(args.app, args.action, Unversioned(), host).value,
                                        SelectProfiles(args, host.store).value)
  {
  }

  /** A run is rejected as a usage error exactly when the parser rejects its
      arguments (given a configuration to load). */
  lemma UsageIffRejected(args: Args, host: Host)
    requires |host.store| > 0
    ensures (Run(args, host).Err? && Run(args, host).error.Usage?) <==> CheckArgs(args).Some?
    ensures Run(args, host).Err? && Run(args, host).error.Usage? ==> Run(args, host).error.ExitCode() == 2
  {
  }

  /** The `profiles` verb lists the configured profiles before the
      `app:version` token is looked at and before any profile is checked. */
  lemma ProfilesComesFirst(args: Args, host: Host)
    requires |host.store| > 0 && CheckArgs(args).None? && args.action == Profiles
    ensures Run(args, host) == Ok([ListProfiles(args.format.GetOr("text"))])
  {
  }

  /** An unconfigured `-p` profile ends the run with a panic, status 1, and
      nothing invoked. */
  lemma UnknownProfilePanics(args: Args, host: Host)
    requires |host.store| > 0 && CheckArgs(args).None? && args.action != Profiles
    requires ResolveTarget(args.app, args.action, Unversioned(), host).Ok?
    requires !args.allProfiles
    requires args.profile.GetOr("test") !in Config.ProfileNames(host.store)
    ensures Run(args, host) == Err(Panic("Profile not found: " + args.profile.GetOr("test")))
    ensures Run(args, host).error.ExitCode() == 1
  {
  }

  /** `deploy` refuses `-a` once the target is resolved. */
  lemma DeployToAllRefused(args: Args, host: Host)
    requires |host.store| > 0 && CheckArgs(args).None?
    requires args.action == Deploy && args.allProfiles
    requires ResolveTarget(args.app, Deploy, Unversioned(), host).Ok?
    ensures Run(args, host) == Err(NoDeployToAll) && NoDeployToAll.ExitCode() == 1
  {
    RunDispatches(args, host);
  }

  /** A successful `deploy` updates exactly one environment, under the `-p`
      profile, with the resolved application and version. */
  lemma DeployOneProfile(args: Args, host: Host)
    requires args.action == Deploy && Run(args, host).Ok?
    ensures ResolveTarget(args.app, Deploy, Unversioned(), host).Ok?
    ensures var t := ResolveTarget(args.app, Deploy, Unversioned(), host).value;
      Run(args, host) == Ok([DeployVersion(args.profile.GetOr("test"), t.app, t.version)])
  {
    RunOkDispatches(args, host);
  }

  /** `create` with `-a` reaches the upload with `profile` never assigned,
      and fails with an UnboundLocalError. */
  lemma CreateAllProfilesUnbound(args: Args, host: Host)
    requires |host.store| > 0 && CheckArgs(args).None?
    requires args.action == Create && args.allProfiles
    requires ResolveTarget(args.app, Create, Unversioned(), host).Ok?
    ensures Run(args, host) == Err(ProfileUnbound)
  {
    RunDispatches(args, host);
  }

  /** A successful `create` uploads the bundle once, to the profile's bucket
      under `<app>/<app>-<version>.zip`, connecting as atlas for atlas and as
      the first configured profile otherwise, then registers the version
      under the same profile from that bucket and key. */
  lemma CreateOneProfile(args: Args, host: Host)
    requires args.action == Create && Run(args, host).Ok?
    ensures ResolveTarget(args.app, Create, Unversioned(), host).Ok?
    ensures var r := Run(args, host).value;
      var p := args.profile.GetOr("test");
      var t := ResolveTarget(args.app, Create, Unversioned(), host).value;
      && |r| == 2
      && r[0].UploadSourceBundle? && r[0].profile == p
      && r[0].bundle.bucket == BuildDepsBucket(p)
      && r[0].bundle.key == ObjectKey(t.app, t.version)
      && r[0].bundle.connection == (if p == "atlas" then "atlas" else Config.ProfileNames(host.store)[0])
      && r[1] == CreateVersion(p, t.app, t.version, BuildDepsBucket(p), r[0].bundle.key)
  {
    RunOkDispatches(args, host);
    var names := Config.ProfileNames(host.store);
    var p := args.profile.GetOr("test");
    var t := ResolveTarget(args.app, Create, Unversioned(), host).value;
    if p != AtlasProfile {
      assert names[0] in names;
    }
  }

  /** Every operation a successful run invokes under a profile works under a
      configured one. */
  lemma TouchedProfilesConfigured(args: Args, host: Host)
    requires Run(args, host).Ok?
    ensures var r := Run(args, host).value;
      forall i :: 0 <= i < |r| && ProfileOf(r[i]).Some? ==> ProfileOf(r[i]).value in Config.ProfileNames(host.store)
  {
    if args.action != Profiles {
      RunOkDispatches(args, host);
    }
  }

  /** With `--read-only` nothing a run invokes changes the platform or the
      object store. */
  lemma ReadOnlyChangesNothing(args: Args, host: Host)
    requires args.readOnly && Run(args, host).Ok?
    ensures forall i :: 0 <= i < |Run(args, host).value| ==> !Mutates(Run(args, host).value[i], true)
  {
    if args.action != Profiles {
      RunOkDispatches(args, host);
    }
  }

  /** `list`, `env` and `instances` invoke their operation once per selected
      profile, in order: every configured profile under `-a`, the `-p` one
      otherwise. */
  lemma ReadVerbsPerProfile(args: Args, host: Host)
    requires args.action in {List, Env, Instances} && Run(args, host).Ok?
    ensures var r := Run(args, host).value;
      var selected := if args.allProfiles then Config.ProfileNames(host.store) else [args.profile.GetOr("test")];
      && |r| == |selected|
      && forall i :: 0 <= i < |r| ==> ProfileOf(r[i]) == Some(selected[i])
  {
    RunOkDispatches(args, host);
  }

  /** What `list_profiles` prints. */
  function ListProfilesOutput(format: string, store: Config.Store): (r: seq<Emit>)
    ensures format == "text" ==> |r| == |store| && forall i :: 0 <= i < |r| ==> r[i] == Say(Echo, store[i].name)
    ensures format == "json" ==> r == [EchoJson(JsonArray(Config.ProfileNames(store)))]
    ensures format != "" && format != "text" && format != "json" ==> r == []
  {
    Format.PrintList(Config.ProfileNames(store), Some(format))
  }

  /** What `list_versions` prints for the names the platform returned: the
      profile header, then the list; the same whether the names are
      applications (no app given) or an application's version labels. */
  function ListVersionsOutput(profile: string, format: string, names: seq<string>): (r: seq<Emit>)
    ensures format == "text" ==>
      && |r| == |names| + 1 && r[0] == Say(Info, "[profile:" + profile + "]")
      && forall i :: 0 <= i < |names| ==> r[i + 1] == Say(Echo, names[i])
    ensures format == "json" ==> r == [EchoJson(JsonArray(names))]
    ensures format == "bash" ==> r == [Say(Echo, "# profile: " + profile)]
    ensures format != "" && format != "text" && format != "json" && format != "bash" ==> r == []
  {
    Format.PrintProfile(profile, Some(format)) + Format.PrintList(names, Some(format))
  }

  /** What `describe_env` prints: the profile header, then either the
      platform's error message, or the environment variables of the
      configuration settings in the requested format. */
  function DescribeEnvOutput(profile: string, format: string, response: Result<seq<Setting>, string>): (r: seq<Emit>)
    ensures response.Err? ==> r == Format.PrintProfile(profile, Some(format)) + [Say(Error, response.error)]
    ensures response.Ok? ==> r == Format.PrintProfile(profile, Some(format)) + Format.PrintDict(EnvVars(response.value), Some(format))
  {
    Format.PrintProfile(profile, Some(format)) +
      match response
      case Err(message) => [Say(Error, message)]
      case Ok(settings) => Format.PrintDict(EnvVars(settings), Some(format))
  }

  /** `env -f dockerenv` prints an env file that reads back to exactly the
      environment variables of the settings, provided no variable name holds
      `=` and no name or value holds a newline. */
  lemma EnvFileRoundTrip(profile: string, settings: seq<Setting>)
    requires forall k :: k in EnvVars(settings) ==> '=' !in k && '\n' !in k && '\n' !in EnvVars(settings)[k]
    ensures Format.ReadAssignments(LineTexts(Output(DescribeEnvOutput(profile, "dockerenv", Ok(settings))))) == EnvVars(settings)
  {
    assert Format.PrintProfile(profile, Some("dockerenv")) == [];
    assert DescribeEnvOutput(profile, "dockerenv", Ok(settings)) == Format.PrintDict(EnvVars(settings), Some("dockerenv"));
    Format.DockerEnvReadsBack(EnvVars(settings));
  }
}

=== FILE: format.dfy ===
/** The output formatter of ebizzle/format.py: a closed set of format names
    and three renderers, for a dictionary, a list and a profile header. Each
    renderer yields the console calls it makes, in order; a format it does not
    know yields no call at all.
 */
module Format {
  import opened Base
  import Text
  import opened MyIO

  const TextFormat: string := "text"
  const BashFormat: string := "bash"
  const JsonFormat: string := "json"
  const DockerEnvFormat: string := "dockerenv"
  /** The name/value list format a job scheduler reads environments in. */
  const NameValueFormat: string := "nvdict"
  const DefaultFormat: string := "text"

  /** `all()`: the format names the command line accepts. */
  function All(): seq<string> {
    [TextFormat, BashFormat, JsonFormat, DockerEnvFormat, NameValueFormat]
  }

  lemma AllIsClosed()
    ensures |All()| == 5
    ensures forall f :: f in All() <==> f in {"text", "bash", "json", "dockerenv", "nvdict"}
    ensures DefaultFormat == TextFormat
  {
  }

  /** `format_ or DEFAULT`: a missing or empty format name means text. */
  function Effective(format: Option<string>): (f: string)
    ensures f == "text" <==> format == None || format == Some("") || format == Some("text")
    ensures format.Some? && format.value != "" ==> f == format.value
  {
    match format
    case None => DefaultFormat
    case Some(name) => if name == "" then DefaultFormat else name
  }

  /** The dictionary's keys as `sorted` walks them. */
  function Keys(d: map<string, string>): (ks: seq<string>)
    ensures |ks| == |d|
    ensures forall k :: k in ks <==> k in d
    ensures Text.StrictlyAscending(ks)
  {
    Text.Sorted(d.Keys)
  }

  /** One echoed `<lead><key><sep><value>` per key, keys ascending. */
  function Entries(d: map<string, string>, lead: string, sep: string): (r: seq<Emit>)
    ensures |r| == |d|
    ensures forall i :: 0 <= i < |r| ==> Keys(d)[i] in d && r[i] == Say(Echo, lead + Keys(d)[i] + sep + d[Keys(d)[i]])
  {
    var ks := Keys(d);
    seq(|ks|, i requires 0 <= i < |ks| => Say(Echo, lead + ks[i] + sep + d[ks[i]]))
  }

  /** One name/value object per key, each followed by a comma, keys ascending. */
  function NameValueEntries(d: map<string, string>): (r: seq<Emit>)
    ensures |r| == |d|
    ensures forall i :: 0 <= i < |r| ==>
      Keys(d)[i] in d && r[i] == Say(Echo, "{\"name\": \"" + Keys(d)[i] + "\", \"value\": \"" + d[Keys(d)[i]] + "\"},")
  {
    var ks := Keys(d);
    seq(|ks|, i requires 0 <= i < |ks| =>
      Say(Echo, "{\"name\": \"" + ks[i] + "\", \"value\": \"" + d[ks[i]] + "\"},"))
  }

  /** `print_dict(dictionary, format_)`. */
  function PrintDict(d: map<string, string>, format: Option<string>): (r: seq<Emit>)
    ensures Effective(format) == "text" ==> r == Entries(d, "", " = ")
    ensures Effective(format) == "dockerenv" ==> r == Entries(d, "", "=")
    ensures Effective(format) == "bash" ==> r == Entries(d, "export ", "=")
    ensures Effective(format) == "json" ==> r == [EchoJson(JsonObject(d))]
    ensures Effective(format) == "nvdict" ==>
      |r| == |d| + 2 && r[0] == Say(Echo, "[") && r[|r| - 1] == Say(Echo, "]") && r[1..|r| - 1] == NameValueEntries(d)
    ensures Effective(format) !in All() ==> r == []
  {
    var f := Effective(format);
    if f == TextFormat then Entries(d, "", " = ")
    else if f == DockerEnvFormat then Entries(d, "", "=")
    else if f == BashFormat then Entries(d, "export ", "=")
    else if f == JsonFormat then [EchoJson(JsonObject(d))]
    else if f == NameValueFormat then [Say(Echo, "[")] + NameValueEntries(d) + [Say(Echo, "]")]
    else []
  }

  /** `print_list(list_, format_)`: text echoes the items in their own order,
      json dumps the whole list, every other format prints nothing. */
  function PrintList(items: seq<string>, format: Option<string>): (r: seq<Emit>)
    ensures Effective(format) == "text" ==> |r| == |items| && forall i :: 0 <= i < |r| ==> r[i] == Say(Echo, items[i])
    ensures Effective(format) == "json" ==> r == [EchoJson(JsonArray(items))]
    ensures Effective(format) != "text" && Effective(format) != "json" ==> r == []
  {
    var f := Effective(format);
    if f == TextFormat then seq(|items|, i requires 0 <= i < |items| => Say(Echo, items[i]))
    else if f == JsonFormat then [EchoJson(JsonArray(items))]
    else []
  }

  /** `print_profile(profile, format_)`: an informational header in text, a
      shell comment in bash, nothing otherwise. */
  function PrintProfile(profile: string, format: Option<string>): (r: seq<Emit>)
    ensures Effective(format) == "text" ==> r == [Say(Info, "[profile:" + profile + "]")]
    ensures Effective(format) == "bash" ==> r == [Say(Echo, "# profile: " + profile)]
    ensures Effective(format) != "text" && Effective(format) != "bash" ==> r == []
  {
    var f := Effective(format);
    if f == TextFormat then [Say(Info, "[profile:" + profile + "]")]
    else if f == BashFormat then [Say(Echo, "# profile: " + profile)]
    else []
  }

  /** The texts of a run of console calls (a json dump contributes an empty text). */
  function Texts(es: seq<Emit>): (ts: seq<string>)
    ensures |ts| == |es|
    ensures forall i :: 0 <= i < |es| ==> !es[i].EchoJson? ==> ts[i] == es[i].text
  {
    seq(|es|, i requires 0 <= i < |es| => if es[i].EchoJson? then "" else es[i].text)
  }

  /** Reads `name=value` lines back the way an env file is read: each line is
      cut at its first `=`, and a later line wins over an earlier one. */
  function ReadAssignments(lines: seq<string>): map<string, string> {
    if |lines| == 0 then map[]
    else
      var line := lines[0];
      var cut := FirstIndex(line, '=');
      var entry := if cut < |line| then map[line[..cut] := line[cut + 1..]] else map[];
      entry + ReadAssignments(lines[1..])
  }

  /** Position of the first `c` in `s`, or `|s|` when there is none. */
  function FirstIndex(s: string, c: char): (k: nat)
    ensures k <= |s|
    ensures c !in s[..k]
    ensures k < |s| ==> s[k] == c
  {
    if |s| == 0 then 0
    else if s[0] == c then 0
    else
      var k := 1 + FirstIndex(s[1..], c);
      assert s[..k] == [s[0]] + s[1..][..k - 1];
      k
  }

  /** `k=v` lines for the keys `ks`, in that order. */
  function Assignments(ks: seq<string>, d: map<string, string>): seq<string>
    requires forall i :: 0 <= i < |ks| ==> ks[i] in d
  {
    if |ks| == 0 then [] else [ks[0] + "=" + d[ks[0]]] + Assignments(ks[1..], d)
  }

  lemma CutAssignment(k: string, v: string)
    requires '=' !in k
    ensures FirstIndex(k + "=" + v, '=') == |k|
    ensures (k + "=" + v)[..|k|] == k && (k + "=" + v)[|k| + 1..] == v
  {
    var line := k + "=" + v;
    var cut := FirstIndex(line, '=');
    assert line[..|k|] == k;
    assert line[|k|] == '=';
    assert line[..cut] == k[..cut] by {
      assert cut <= |k|;
    }
  }

  /** Reading back `k=v` lines whose keys are free of `=` yields, for each
      key, its value in `d`; no other key appears. */
  lemma {:induction false} ReadEntries(ks: seq<string>, d: map<string, string>)
    requires forall i :: 0 <= i < |ks| ==> ks[i] in d && '=' !in ks[i]
    ensures forall k :: k in ReadAssignments(Assignments(ks, d)) <==> k in ks
    ensures forall k :: k in ReadAssignments(Assignments(ks, d)) ==> k in d && ReadAssignments(Assignments(ks, d))[k] == d[k]
  {
    if |ks| > 0 {
      var k := ks[0];
      var lines := Assignments(ks, d);
      ReadEntries(ks[1..], d);
      CutAssignment(k, d[k]);
      assert lines[0] == k + "=" + d[k];
      assert lines[1..] == Assignments(ks[1..], d);
      assert ReadAssignments(lines) == map[k := d[k]] + ReadAssignments(lines[1..]);
      assert forall k' :: k' in ks <==> k' == k || k' in ks[1..];
    }
  }

  lemma {:induction false} AssignmentsAt(ks: seq<string>, d: map<string, string>)
    requires forall i :: 0 <= i < |ks| ==> ks[i] in d
    ensures |Assignments(ks, d)| == |ks|
    ensures forall i :: 0 <= i < |ks| ==> Assignments(ks, d)[i] == ks[i] + "=" + d[ks[i]]
  {
    if |ks| > 0 {
      AssignmentsAt(ks[1..], d);
    }
  }

  lemma {:induction false} EntriesAreAssignments(d: map<string, string>)
    ensures Texts(Entries(d, "", "=")) == Assignments(Keys(d), d)
  {
    var ks := Keys(d);
    var r := Entries(d, "", "=");
    var t := Texts(r);
    AssignmentsAt(ks, d);
    forall i | 0 <= i < |ks| ensures t[i] == Assignments(ks, d)[i] {
      assert r[i] == Say(Echo, "" + ks[i] + "=" + d[ks[i]]);
      assert "" + ks[i] == ks[i];
    }
  }

  /** The dockerenv lines of a dictionary are its `k=v` assignments, keys ascending. */
  lemma DockerEnvLines(d: map<string, string>)
    ensures Texts(PrintDict(d, Some("dockerenv"))) == Assignments(Keys(d), d)
  {
    assert PrintDict(d, Some("dockerenv")) == Entries(d, "", "=");
    EntriesAreAssignments(d);
  }

  /** Two maps with the same keys and the same value at each key are equal. */
  lemma SameMap(m: map<string, string>, d: map<string, string>)
    requires forall k :: k in m <==> k in d
    requires forall k :: k in m ==> m[k] == d[k]
    ensures m == d
  {
    assert m.Keys == d.Keys;
  }

  /** The assignments of every key, keys free of `=`, read back to the dictionary. */
  lemma ReadBackAll(d: map<string, string>)
    requires forall k :: k in d ==> '=' !in k
    ensures ReadAssignments(Assignments(Keys(d), d)) == d
  {
    var ks := Keys(d);
    var m := ReadAssignments(Assignments(ks, d));
    ReadEntries(ks, d);
    SameMap(m, d);
  }

  /** The messages the dockerenv rendering echoes read back to the dictionary
      itself, provided no key holds `=` (values may). */
  lemma DockerEnvTextsReadBack(d: map<string, string>)
    requires forall k :: k in d ==> '=' !in k
    ensures ReadAssignments(Texts(PrintDict(d, Some("dockerenv")))) == d
  {
    DockerEnvLines(d);
    ReadBackAll(d);
  }

  /** The printed dockerenv lines read back to the dictionary itself, provided
      no key holds `=` and neither keys nor values hold a newline, which would
      make `_print` split an echoed assignment over two lines. */
  lemma DockerEnvReadsBack(d: map<string, string>)
    requires forall k :: k in d ==> '=' !in k && '\n' !in k && '\n' !in d[k]
    ensures ReadAssignments(LineTexts(Output(PrintDict(d, Some("dockerenv"))))) == d
  {
    var es := PrintDict(d, Some("dockerenv"));
    assert es == Entries(d, "", "=");
    EntriesEchoOneLine(d);
    PrintedEchoes(es);
    DockerEnvTextsReadBack(d);
  }

  /** Every dockerenv entry is an echo free of newlines when the dictionary is. */
  lemma EntriesEchoOneLine(d: map<string, string>)
    requires forall k :: k in d ==> '\n' !in k && '\n' !in d[k]
    ensures var es := Entries(d, "", "=");
      forall i :: 0 <= i < |es| ==> es[i].Say? && es[i].level == Echo && '\n' !in es[i].text
  {
    var es := Entries(d, "", "=");
    forall i | 0 <= i < |es| ensures es[i].Say? && es[i].level == Echo && '\n' !in es[i].text {
      var k := Keys(d)[i];
      assert k in d;
      JoinedOneLine(k, d[k]);
    }
  }

  /** An assignment of newline-free parts is newline-free. */
  lemma JoinedOneLine(k: string, v: string)
    requires '\n' !in k && '\n' !in v
    ensures '\n' !in "" + k + "=" + v
  {
    assert "" + k + "=" + v == k + ['='] + v;
  }

  /** Echoes without newlines print exactly their texts. */
  lemma PrintedEchoes(es: seq<Emit>)
    requires forall i :: 0 <= i < |es| ==> es[i].Say? && es[i].level == Echo && '\n' !in es[i].text
    ensures LineTexts(Output(es)) == Texts(es)
  {
    EchoedVerbatim(es);
  }

  /** A newline in a value makes the printed env file differ from the
      dictionary: the one echoed assignment is printed as two lines, and the
      second reads as an assignment of its own. */
  lemma NewlineValueSplits()
    ensures ReadAssignments(LineTexts(Output(PrintDict(map["A" := "x\nB=y"], Some("dockerenv"))))) == map["A" := "x", "B" := "y"]
  {
    PrintedTwoLines();
    ReadTwo();
  }

  lemma PrintedTwoLines()
    ensures LineTexts(Output(PrintDict(map["A" := "x\nB=y"], Some("dockerenv")))) == ["A=x", "B=y"]
  {
    OneEntry();
    OneEchoTwoLines();
    var ts := LineTexts([Line.Text("A=x"), Line.Text("B=y")]);
    assert ts[0] == "A=x" && ts[1] == "B=y";
  }

  lemma OneEchoTwoLines()
    ensures Output([Say(Echo, "A=x\nB=y")]) == [Line.Text("A=x"), Line.Text("B=y")]
  {
    assert "A=x" + "\n" + "B=y" == "A=x\nB=y";
    EchoSplitsInTwo("A=x", "B=y");
  }

  lemma OneEntry()
    ensures PrintDict(map["A" := "x\nB=y"], Some("dockerenv")) == [Say(Echo, "A=x\nB=y")]
  {
    var d := map["A" := "x\nB=y"];
    var es := Entries(d, "", "=");
    assert Keys(d) == ["A"];
    assert |es| == 1 && es[0] == Say(Echo, "" + "A" + "=" + "x\nB=y");
    assert "" + "A" + "=" + "x\nB=y" == "A=x\nB=y";
  }

  lemma EchoSplitsInTwo(a: string, b: string)
    requires '\n' !in a && '\n' !in b
    ensures Output([Say(Echo, a + "\n" + b)]) == [Line.Text(a), Line.Text(b)]
  {
    assert a + "\n" + b == a + ['\n'] + b;
    Text.SplitConcat(a, b, '\n');
    Text.SplitWithout(a, '\n');
    Text.SplitWithout(b, '\n');
    var e := Say(Echo, a + "\n" + b);
    assert Lines(e) == [Line.Text(a), Line.Text(b)];
    assert Output([e]) == Lines(e) + Output([]);
  }

  lemma ReadTwo()
    ensures ReadAssignments(["A=x", "B=y"]) == map["A" := "x", "B" := "y"]
  {
    CutAssignment("A", "x");
    CutAssignment("B", "y");
    assert "A" + "=" + "x" == "A=x";
    assert "B" + "=" + "y" == "B=y";
    assert ["A=x", "B=y"][1..] == ["B=y"];
  }
}

=== FILE: myio.dfy ===
/** The console printer of ebizzle/myio.py: one `_print` routine that splits
    a lone message on newlines and optionally wraps every printed line in an
    ANSI colour escape, plus the four severity helpers built on it.
 */
module MyIO {
  import opened Base
  import Text

  datatype Color = Red | Green | Yellow | Blue {
    /** The decimal SGR code of the colour, as `%s` prints the int constant. */
    function Code(): string {
      match this
      case Red => "31"
      case Green => "32"
      case Yellow => "33"
      case Blue => "34"
    }
  }

  const Esc: char := '\U{1B}'

  /** What a coloured line is wrapped in: `\033[00;<code>m` before, `\033[0m` after. */
  function Opening(c: Color): string {
    [Esc] + "[00;" + c.Code() + "m"
  }

  const Closing: string := [Esc] + "[0m"

  /** The string handed to one `print` statement for one message. */
  function Paint(message: string, color: Option<Color>): string {
    match color
    case None => message
    case Some(c) => Opening(c) + message + Closing
  }

  /** Removes the colour wrapping of a printed line, if it carries one. */
  function Unpaint(line: string, color: Option<Color>): string {
    match color
    case None => line
    case Some(c) =>
      var open := Opening(c);
      if |line| >= |open| + |Closing| && line[..|open|] == open && line[|line| - |Closing|..] == Closing
      then line[|open|..|line| - |Closing|]
      else line
  }

  lemma UnpaintPaint(message: string, color: Option<Color>)
    ensures Unpaint(Paint(message, color), color) == message
  {
    if color.Some? {
      var line := Paint(message, color);
      var open := Opening(color.value);
      assert line[..|open|] == open;
      assert line[|line| - |Closing|..] == Closing;
      assert line[|open|..|line| - |Closing|] == message;
    }
  }

  /** The texts `_print` prints before colouring: a lone message is split on
      newlines, several messages are printed one per line unsplit, and no
      message at all prints one empty line. */
  function Pieces(messages: seq<string>): seq<string> {
    if |messages| == 0 then [""]
    else if |messages| == 1 then Text.Split(messages[0], '\n')
    else messages
  }

  /** `_print(*messages, color=color)`: the strings given to successive
      `print` statements. The empty call prints its blank line uncoloured. */
  function Print(messages: seq<string>, color: Option<Color>): (lines: seq<string>)
    ensures |messages| == 0 ==> lines == [""]
    ensures |messages| == 1 ==> |lines| == Text.Occurrences(messages[0], '\n') + 1
    ensures |messages| >= 2 ==> |lines| == |messages|
    ensures |messages| > 0 ==> forall i :: 0 <= i < |lines| ==> Unpaint(lines[i], color) == Pieces(messages)[i]
    ensures |messages| > 0 ==> forall i :: 0 <= i < |lines| ==> lines[i] == Paint(Pieces(messages)[i], color)
  {
    if |messages| == 0 then [""]
    else
      var pieces := Pieces(messages);
      var lines := seq(|pieces|, i requires 0 <= i < |pieces| => Paint(pieces[i], color));
      assert forall i :: 0 <= i < |lines| ==> Unpaint(lines[i], color) == pieces[i] by {
        forall i | 0 <= i < |lines| ensures Unpaint(lines[i], color) == pieces[i] {
          UnpaintPaint(pieces[i], color);
        }
      }
      lines
  }

  /** One uncoloured message prints exactly its own text: joining the printed
      lines with newlines gives the message back. */
  lemma EchoOneRoundTrip(message: string)
    ensures Text.Join(Print([message], None), '\n') == message
  {
    var lines := Print([message], None);
    var pieces := Text.Split(message, '\n');
    assert lines == pieces by {
      forall i | 0 <= i < |lines| ensures lines[i] == pieces[i] {
        assert Unpaint(lines[i], None) == lines[i];
      }
    }
  }

  /** The severity of a message, which fixes its colour. */
  datatype Level = Echo | Info | Success | Error {
    function Color(): Option<Color> {
      match this
      case Echo => None
      case Info => Some(Blue)
      case Success => Some(Green)
      case Error => Some(Red)
    }
  }

  /** The line `_print` prints for `text` under SGR colour code `code`. */
  function Wrapped(code: string, text: string): string {
    [Esc] + "[00;" + code + "m" + text + [Esc] + "[0m"
  }

  /** `success`, `error`, `info` and `echo`: `_print` with the level's colour;
      `echo` prints its texts verbatim, the others wrap every line in codes 32,
      31 and 34 respectively. */
  function Log(level: Level, messages: seq<string>): (lines: seq<string>)
    ensures |lines| == |Pieces(messages)|
    ensures level == Echo ==> lines == Pieces(messages)
    ensures level == Level.Success && |messages| > 0 ==>
      forall i :: 0 <= i < |lines| ==> lines[i] == Wrapped("32", Pieces(messages)[i])
    ensures level == Error && |messages| > 0 ==>
      forall i :: 0 <= i < |lines| ==> lines[i] == Wrapped("31", Pieces(messages)[i])
    ensures level == Info && |messages| > 0 ==>
      forall i :: 0 <= i < |lines| ==> lines[i] == Wrapped("34", Pieces(messages)[i])
  {
    Print(messages, level.Color())
  }

  /** A document handed to `json.dumps`, whose encoding is not modelled. */
  datatype JsonDoc = JsonObject(fields: map<string, string>) | JsonArray(items: seq<string>)

  /** One output call: a single-message `io.<level>(text)`, a bare `print`
      statement, or `io.echo(json.dumps(doc))`. */
  datatype Emit = Say(level: Level, text: string) | Raw(text: string) | EchoJson(doc: JsonDoc)

  /** A printed line: literal text, or the single line `json.dumps` produces. */
  datatype Line = Text(s: string) | Json(doc: JsonDoc)

  function Lines(e: Emit): seq<Line> {
    match e
    case Say(level, text) =>
      var ls := Log(level, [text]);
      seq(|ls|, i requires 0 <= i < |ls| => Text(ls[i]))
    case Raw(text) => [Text(text)]
    case EchoJson(doc) => [Json(doc)]
  }

  function Output(es: seq<Emit>): seq<Line> {
    if |es| == 0 then [] else Lines(es[0]) + Output(es[1..])
  }

  /** When no emitted text holds a newline, every call prints exactly one line. */
  lemma {:induction false} OutputOneLineEach(es: seq<Emit>)
    requires forall i :: 0 <= i < |es| ==> !es[i].EchoJson? ==> '\n' !in es[i].text
    ensures |Output(es)| == |es|
  {
    if |es| > 0 {
      OutputOneLineEach(es[1..]);
      if es[0].Say? {
        Text.OccurrencesZero(es[0].text, '\n');
      }
    }
  }

  /** The text of each printed line; a json dump counts as an empty text. */
  function LineTexts(ls: seq<Line>): (ts: seq<string>)
    ensures |ts| == |ls|
    ensures forall i :: 0 <= i < |ls| ==> ls[i].Text? ==> ts[i] == ls[i].s
  {
    seq(|ls|, i requires 0 <= i < |ls| => if ls[i].Text? then ls[i].s else "")
  }

  /** Echoed messages holding no newline are printed verbatim, one line each. */
  lemma {:induction false} EchoedVerbatim(es: seq<Emit>)
    requires forall i :: 0 <= i < |es| ==> es[i].Say? && es[i].level == Echo && '\n' !in es[i].text
    ensures |Output(es)| == |es|
    ensures forall i :: 0 <= i < |es| ==> Output(es)[i] == Text(es[i].text)
  {
    if |es| > 0 {
      EchoedVerbatim(es[1..]);
      Text.SplitWithout(es[0].text, '\n');
      assert Lines(es[0]) == [Text(es[0].text)];
    }
  }
}

=== FILE: src_ebizzle.dfy ===
/** The main routine of src/ebizzle.py. It differs from ebizzle/ebizzle.py in
    four ways: there is no `instances` verb, the format choices are those of
    src/format.py (no nvdict), every bundle goes to one fixed bucket through
    the default storage connection, and `create` uploads under the first
    selected profile, so `-a` uploads once and then registers the version
    under every configured profile. It reads no profile name at load time.
 */
module SrcEbizzle {
  import opened Base
  import Config
  import Format
  import SrcFormat
  import opened MyIO
  import opened Workflow
  import Ebizzle

  const BuildDepsBucket: string := "dbz-build-deps"

  /** The profile `get_s3_conn()` asks for when called without one. */
  const DefaultConnection: string := "production"

  const NoProfileSelected: Failure := Raised("IndexError: list index out of range")

  /** `Action.all()`: the verbs this script accepts. */
  function Actions(): (r: seq<Action>)
    ensures |r| == 5
    ensures Create in r && Deploy in r && List in r && Profiles in r && Env in r
    ensures Instances !in r
  {
    [Create, Deploy, List, Profiles, Env]
  }

  /** The verbs that do not derive a version from the repository. */
  function Unversioned(): set<Action> {
    {List, Env}
  }

  /** What the argument parser rejects: a verb or a format outside its
      choices, or `-p` together with `-a`. */
  function CheckArgs(args: Args): (r: Option<Failure>)
    ensures r.None? <==>
      && args.action in Actions()
      && (args.format.None? || args.format.value in SrcFormat.All())
      && !(args.profile.Some? && args.allProfiles)
    ensures r.Some? ==> r.value.Usage? && r.value.ExitCode() == 2
  {
    if args.action !in Actions() then Some(Usage("argument action: invalid choice: '" + args.action.Name() + "'"))
    else if args.format.Some? && args.format.value !in SrcFormat.All() then
      Some(Usage("argument -f/--format: invalid choice: '" + args.format.value + "'"))
    else if args.profile.Some? && args.allProfiles then
      Some(Usage("argument -a/--all-profiles: not allowed with argument -p/--profile"))
    else None
  }

  /** How a run that raised ends: the operations it invoked, up to and
      including the one that raised, and the exception. A failure decided
      while planning, an upload's panic included, has no operation invoked. */
  datatype Stop = Stop(invoked: seq<Invocation>, failure: Failure)

  /** `main()`: the operations one run invokes, in order, or where and how it
      stops. Everything the argument check, the target and the profile
      selection reject, and every panic of `create` and `deploy`, is decided
      before any operation completes. An upload's panics are raised inside
      `upload_source_bundle`, after its first lines, but are planned here and
      recorded with no operation invoked. Only the json renderings of
      `profiles`, `list` and `env` raise once an operation has completed. */
  function Run(args: Args, host: Host): (r: Result<seq<Invocation>, Stop>)
    ensures r.Ok? ==> Plan(args, host).Ok? && r.value == Plan(args, host).value
    ensures Plan(args, host).Err? ==> r == Err(Stop([], Plan(args, host).error))
    ensures Plan(args, host).Ok? ==> r == Perform(Plan(args, host).value, host)
    ensures Plan(args, host).Ok? && FormatArg(args) != "json" ==> r == Ok(Plan(args, host).value)
    ensures r.Err? && r.error.invoked != [] ==>
      FormatArg(args) == "json" && args.action in {Profiles, List, Env} && r.error.failure == SrcFormat.JsonUnbound
  {
    match Plan(args, host)
    case Err(failure) => Err(Stop([], failure))
    case Ok(invs) =>
      PlannedRaises(args, host);
      Perform(invs, host)
  }

  /** The operations `main()` sets out to invoke, in order, or the failure
      that stops it before any of them completes. */
  function Plan(args: Args, host: Host): Result<seq<Invocation>, Failure> {
    match CheckArgs(args)
    case Some(failure) => Err(failure)
    case None =>
      if args.action == Profiles then Ok([ListProfiles(FormatArg(args))])
      else
        var target :- ResolveTarget(args.app, args.action, Unversioned(), host);
        var profiles :- SelectProfiles(args, host.store);
        Dispatch(args, host, target, profiles)
  }

  /** The exception a result carries, if any. */
  function ErrorOf<T>(r: Result<T, Failure>): Option<Failure> {
    if r.Err? then Some(r.error) else None
  }

  /** The exception an invocation raises in this script: a listing rendered
      as json calls the unimported `json` module once the platform has
      answered. Whether a renderer fails does not depend on the listed values,
      so it is asked about an empty listing; `describe_env` prints the
      platform's refusal instead of rendering, and does not raise. */
  function Raises(inv: Invocation, host: Host): (r: Option<Failure>)
    ensures r.Some? <==>
      && (inv.ListProfiles? || inv.ListVersions? || (inv.DescribeEnv? && inv.profile !in host.describeFailures))
      && inv.format == "json"
    ensures r.Some? ==> r.value == SrcFormat.JsonUnbound
  {
    match inv
    case ListProfiles(format) => ErrorOf(ListProfilesOutput(format, host.store))
    case ListVersions(_, _, format) => ErrorOf(SrcFormat.PrintList([], Some(format)))
    case DescribeEnv(profile, _, _, format) =>
      ErrorOf(DescribeEnvOutput(profile, format, if profile in host.describeFailures then Err("") else Ok([])))
    case _ => None
  }

  /** The position of the first invocation that raises, or `|invs|` when none does. */
  function FirstRaise(invs: seq<Invocation>, host: Host): (k: nat)
    ensures k <= |invs|
    ensures forall j :: 0 <= j < k ==> Raises(invs[j], host).None?
    ensures k < |invs| ==> Raises(invs[k], host).Some?
  {
    if |invs| == 0 then 0
    else if Raises(invs[0], host).Some? then 0
    else 1 + FirstRaise(invs[1..], host)
  }

  /** Invokes the operations one after the other; the first that raises ends
      the run, after it and every operation before it were invoked. */
  function Perform(invs: seq<Invocation>, host: Host): (r: Result<seq<Invocation>, Stop>)
    ensures r.Ok? <==> forall i :: 0 <= i < |invs| ==> Raises(invs[i], host).None?
    ensures r.Ok? ==> r.value == invs
    ensures r.Err? ==>
      var k := FirstRaise(invs, host);
      k < |invs| && r.error == Stop(invs[..k + 1], Raises(invs[k], host).value)
  {
    if |invs| == 0 then Ok([])
    else if Raises(invs[0], host).Some? then
      assert invs[..1] == [invs[0]];
      Err(Stop([invs[0]], Raises(invs[0], host).value))
    else
      var rest := Perform(invs[1..], host);
      FirstRaiseStep(invs, host);
      NoneRaiseCons(invs, host);
      assert [invs[0]] + invs[1..] == invs;
      if rest.Ok? then Ok([invs[0]] + rest.value)
      else
        PrefixCons(invs, FirstRaise(invs[1..], host));
        Err(Stop([invs[0]] + rest.error.invoked, rest.error.failure))
  }

  /** Past an invocation that does not raise, the first raising position
      moves up by one. */
  lemma FirstRaiseStep(invs: seq<Invocation>, host: Host)
    requires |invs| > 0 && Raises(invs[0], host).None?
    ensures FirstRaise(invs, host) == 1 + FirstRaise(invs[1..], host)
  {
  }

  /** A prefix of a non-empty sequence is its head before a prefix of its tail. */
  lemma PrefixCons(invs: seq<Invocation>, k: nat)
    requires k < |invs| - 1
    ensures invs[..k + 2] == [invs[0]] + invs[1..][..k + 1]
  {
  }

  /** No invocation raises exactly when the head does not and no invocation of the tail does. */
  lemma NoneRaiseCons(invs: seq<Invocation>, host: Host)
    requires |invs| > 0 && Raises(invs[0], host).None?
    ensures (forall i :: 0 <= i < |invs| ==> Raises(invs[i], host).None?) <==>
            (forall i :: 0 <= i < |invs| - 1 ==> Raises(invs[1..][i], host).None?)
  {
    if forall i :: 0 <= i < |invs| - 1 ==> Raises(invs[1..][i], host).None? {
      forall i | 0 <= i < |invs| ensures Raises(invs[i], host).None? {
        if i > 0 { assert invs[i] == invs[1..][i - 1]; }
      }
    }
  }

  /** The verb-specific tail of planning, once the target and the profiles
      are settled: every operation it plans works under one of `profiles`,
      read-only it plans nothing that changes the platform, and only `create`
      and `deploy` can fail here. */
  function Dispatch(args: Args, host: Host, target: Target, profiles: seq<string>): (r: Result<seq<Invocation>, Failure>)
    requires args.action != Profiles && args.action != Instances
    requires !args.allProfiles ==> |profiles| == 1
    ensures r.Ok? ==> forall i :: 0 <= i < |r.value| ==> ProfileOf(r.value[i]).Some? && ProfileOf(r.value[i]).value in profiles
    ensures r.Ok? && args.readOnly ==> forall i :: 0 <= i < |r.value| ==> !Mutates(r.value[i], true)
    ensures r.Err? ==> args.action in {Create, Deploy} && !r.error.Usage?
    ensures r.Ok? && (args.action == Create || args.action == Deploy) ==>
      forall i :: 0 <= i < |r.value| ==> r.value[i].UploadSourceBundle? || r.value[i].CreateVersion? || r.value[i].DeployVersion?
    ensures r.Ok? && (args.action == List || args.action == Env) ==>
      forall i :: 0 <= i < |r.value| ==> (r.value[i].ListVersions? || r.value[i].DescribeEnv?) && r.value[i].format == FormatArg(args)
  {
    if args.action == Create then CreateAll(args, host, target, profiles)
    else if args.action == Deploy then
      if args.allProfiles then Err(Ebizzle.NoDeployToAll)
      else Ok([DeployVersion(profiles[0], target.app, target.version)])
    else Ok(PerProfile(args.action, profiles, target, FormatArg(args)))
  }

  /** The upload `create` starts with: the fixed bucket, through the default
      connection, never overwriting. */
  function Upload(args: Args, host: Host, target: Target): Result<Bundle, Failure> {
    PlanUpload(args.sourceBundle, target.app, target.version, host, BuildDepsBucket, DefaultConnection, args.readOnly, false)
  }

  /** `create`: upload once under the first profile, then register the
      version under each profile from the uploaded key. */
  function CreateAll(args: Args, host: Host, target: Target, profiles: seq<string>): (r: Result<seq<Invocation>, Failure>)
    ensures |profiles| == 0 ==> r == Err(NoProfileSelected)
    ensures |profiles| > 0 ==> (r.Ok? <==> Upload(args, host, target).Ok?)
    ensures |profiles| > 0 && r.Err? ==> r.error == Upload(args, host, target).error
    ensures r.Ok? ==> |profiles| > 0 && |r.value| == |profiles| + 1
    ensures r.Ok? ==> r.value[0] == UploadSourceBundle(profiles[0], Upload(args, host, target).value)
    ensures r.Ok? ==> forall i :: 0 <= i < |profiles| ==>
      r.value[i + 1] == CreateVersion(profiles[i], target.app, target.version, BuildDepsBucket, Upload(args, host, target).value.key)
    ensures r.Ok? ==> forall i :: 0 <= i < |r.value| ==> ProfileOf(r.value[i]).Some? && ProfileOf(r.value[i]).value in profiles
    ensures r.Ok? && args.readOnly ==> forall i :: 0 <= i < |r.value| ==> !Mutates(r.value[i], true)
    ensures r.Ok? ==> forall i :: 0 <= i < |r.value| ==> r.value[i].UploadSourceBundle? || r.value[i].CreateVersion?
    ensures r.Err? ==> !r.error.Usage?
  {
    if |profiles| == 0 then Err(NoProfileSelected)
    else
      var upload := Upload(args, host, target);
      if upload.Err? then
        UploadFailsWithoutUsage(args, host, target);
        Err(upload.error)
      else Ok(CreateSteps(profiles, target, upload.value))
  }

  /** The invocations of a `create` whose upload is planned: the upload under
      the first profile, then one registration per profile from its key. */
  function CreateSteps(profiles: seq<string>, target: Target, bundle: Bundle): (r: seq<Invocation>)
    requires |profiles| > 0
    ensures |r| == |profiles| + 1 && r[0] == UploadSourceBundle(profiles[0], bundle)
    ensures forall i :: 0 <= i < |profiles| ==>
      r[i + 1] == CreateVersion(profiles[i], target.app, target.version, BuildDepsBucket, bundle.key)
    ensures forall i :: 0 <= i < |r| ==> ProfileOf(r[i]).Some? && ProfileOf(r[i]).value in profiles
    ensures bundle.write != Store ==> forall i :: 0 <= i < |r| ==> !Mutates(r[i], true)
    ensures forall i :: 0 <= i < |r| ==> r[i].UploadSourceBundle? || r[i].CreateVersion?
  {
    var registrations := Registrations(profiles, target, _ => BuildDepsBucket, bundle.key);
    var r := [UploadSourceBundle(profiles[0], bundle)] + registrations;
    forall i | 0 <= i < |profiles|
      ensures r[i + 1] == CreateVersion(profiles[i], target.app, target.version, BuildDepsBucket, bundle.key)
    {
      assert r[i + 1] == registrations[i];
    }
    forall i | 0 <= i < |r|
      ensures r[i].UploadSourceBundle? || r[i].CreateVersion?
      ensures ProfileOf(r[i]).Some? && ProfileOf(r[i]).value in profiles
      ensures bundle.write != Store ==> !Mutates(r[i], true)
    {
      if i > 0 {
        assert r[i] == registrations[i - 1];
      }
    }
    r
  }

  /** A failed upload panics or raises; it is never a usage error. */
  lemma UploadFailsWithoutUsage(args: Args, host: Host, target: Target)
    requires Upload(args, host, target).Err?
    ensures !Upload(args, host, target).error.Usage?
  {
  }

  /** Past the argument check, planning anything but `profiles` resolves the
      target, selects the profiles, and dispatches. */
  lemma PlanDispatches(args: Args, host: Host)
    requires CheckArgs(args).None? && args.action != Profiles
    requires ResolveTarget(args.app, args.action, Unversioned(), host).Ok?
    requires SelectProfiles(args, host.store).Ok?
    ensures Plan(args, host) == Dispatch(args, host, ResolveTarget(args.app, args.action, Unversioned(), host).value,
                                         SelectProfiles(args, host.store).value)
  {
  }

  /** A successful plan other than `profiles` is its dispatch's. */
  lemma PlanOkDispatches(args: Args, host: Host)
    requires Plan(args, host).Ok? && args.action != Profiles
    ensures CheckArgs(args).None?
    ensures ResolveTarget(args.app, args.action, Unversioned(), host).Ok?
    ensures SelectProfiles(args, host.store).Ok?
    ensures Plan(args, host) == Dispatch(args, host, ResolveTarget(args.app, args.action, Unversioned(), host).value,
                                         SelectProfiles(args, host.store).value)
  {
  }

  /** Only a json listing among the planned operations can raise. */
  lemma PlannedRaises(args: Args, host: Host)
    requires Plan(args, host).Ok?
    ensures forall i :: 0 <= i < |Plan(args, host).value| && Raises(Plan(args, host).value[i], host).Some? ==>
      FormatArg(args) == "json" && args.action in {Profiles, List, Env}
  {
    if args.action != Profiles {
      PlanOkDispatches(args, host);
      DispatchRaises(args, host, ResolveTarget(args.app, args.action, Unversioned(), host).value,
                     SelectProfiles(args, host.store).value);
    }
  }

  /** Past planning, only a json `list` or `env` invokes anything that
      raises: nothing `create` or `deploy` invokes raises. */
  lemma DispatchRaises(args: Args, host: Host, target: Target, profiles: seq<string>)
    requires args.action != Profiles && args.action != Instances
    requires !args.allProfiles ==> |profiles| == 1
    ensures Dispatch(args, host, target, profiles).Ok? ==>
      var invs := Dispatch(args, host, target, profiles).value;
      forall i :: 0 <= i < |invs| && Raises(invs[i], host).Some? ==> FormatArg(args) == "json" && args.action in {List, Env}
  {
    if Dispatch(args, host, target, profiles).Ok? {
      DispatchedRaises(args, host, target, profiles);
    }
  }

  /** `DispatchRaises` for a dispatch known to succeed. */
  lemma DispatchedRaises(args: Args, host: Host, target: Target, profiles: seq<string>)
    requires args.action != Profiles && args.action != Instances
    requires !args.allProfiles ==> |profiles| == 1
    requires Dispatch(args, host, target, profiles).Ok?
    ensures var invs := Dispatch(args, host, target, profiles).value;
      forall i :: 0 <= i < |invs| && Raises(invs[i], host).Some? ==> FormatArg(args) == "json" && args.action in {List, Env}
  {
  }

  /** This script has no `instances` verb: asking for it is a usage error,
      before anything is invoked. */
  lemma InstancesRejected(args: Args, host: Host)
    requires args.action == Instances
    ensures Run(args, host).Err? && Run(args, host).error.invoked == []
    ensures Run(args, host).error.failure.Usage? && Run(args, host).error.failure.ExitCode() == 2
  {
  }

  /** `profiles -f json` invokes the listing, which raises NameError. */
  lemma ProfilesJsonRaises(args: Args, host: Host)
    requires CheckArgs(args).None? && args.action == Profiles && args.format == Some("json")
    ensures Run(args, host) == Err(Stop([ListProfiles("json")], SrcFormat.JsonUnbound))
    ensures Run(args, host).error.failure.ExitCode() == 1
  {
    assert Plan(args, host) == Ok([ListProfiles("json")]);
    assert [ListProfiles("json")][..1] == [ListProfiles("json")];
  }

  /** `list -f json` raises on the first profile's listing, so no later
      profile is listed. */
  lemma ListJsonStopsAtFirst(args: Args, host: Host)
    requires CheckArgs(args).None? && args.action == List && args.format == Some("json")
    requires ResolveTarget(args.app, List, Unversioned(), host).Ok?
    requires SelectProfiles(args, host.store).Ok? && |SelectProfiles(args, host.store).value| > 0
    ensures Run(args, host) == Err(Stop([ListVersions(SelectProfiles(args, host.store).value[0],
                                                      ResolveTarget(args.app, List, Unversioned(), host).value.app, "json")],
                                        SrcFormat.JsonUnbound))
  {
    PlanDispatches(args, host);
    var invs := Plan(args, host).value;
    assert Raises(invs[0], host).Some?;
    assert FirstRaise(invs, host) == 0;
  }

  /** `env -f json` goes through the profiles while the platform refuses to
      describe their settings, and raises on the first profile whose settings
      it describes; it succeeds only when every profile is refused. */
  lemma EnvJsonStops(args: Args, host: Host)
    requires CheckArgs(args).None? && args.action == Env && args.format == Some("json")
    requires ResolveTarget(args.app, Env, Unversioned(), host).Ok?
    requires SelectProfiles(args, host.store).Ok?
    ensures var ps := SelectProfiles(args, host.store).value;
      Run(args, host).Ok? <==> forall i :: 0 <= i < |ps| ==> ps[i] in host.describeFailures
    ensures var ps := SelectProfiles(args, host.store).value;
      var t := ResolveTarget(args.app, Env, Unversioned(), host).value;
      Run(args, host).Err? ==> exists k ::
        && 0 <= k < |ps| && ps[k] !in host.describeFailures
        && (forall j :: 0 <= j < k ==> ps[j] in host.describeFailures)
        && Run(args, host).error == Stop(PerProfile(Env, ps, t, "json")[..k + 1], SrcFormat.JsonUnbound)
  {
    PlanDispatches(args, host);
    var ps := SelectProfiles(args, host.store).value;
    var t := ResolveTarget(args.app, Env, Unversioned(), host).value;
    var invs := PerProfile(Env, ps, t, "json");
    assert Plan(args, host).value == invs;
    forall i | 0 <= i < |ps| ensures (Raises(invs[i], host).None? <==> ps[i] in host.describeFailures) {
      assert invs[i] == DescribeEnv(ps[i], t.app, t.version, "json");
    }
    if Run(args, host).Err? {
      var k := FirstRaise(invs, host);
      assert ps[k] !in host.describeFailures;
    }
  }

  /** Once the target resolves, a profile is selected and the upload can be
      planned, `create` runs to the end: one upload under the first profile,
      then one registration per selected profile. */
  lemma CreatePerformed(args: Args, host: Host)
    requires CheckArgs(args).None? && args.action == Create
    requires ResolveTarget(args.app, Create, Unversioned(), host).Ok?
    requires SelectProfiles(args, host.store).Ok? && |SelectProfiles(args, host.store).value| > 0
    requires Upload(args, host, ResolveTarget(args.app, Create, Unversioned(), host).value).Ok?
    ensures var ps := SelectProfiles(args, host.store).value;
      var t := ResolveTarget(args.app, Create, Unversioned(), host).value;
      && Run(args, host).Ok?
      && |Run(args, host).value| == |ps| + 1
      && Run(args, host).value[0] == UploadSourceBundle(ps[0], Upload(args, host, t).value)
      && forall i :: 0 <= i < |ps| ==>
           Run(args, host).value[i + 1] == CreateVersion(ps[i], t.app, t.version, BuildDepsBucket, Upload(args, host, t).value.key)
  {
    PlanDispatches(args, host);
    PlannedRaises(args, host);
  }

  /** `deploy` of a configured profile, without `-a`, once the target
      resolves, invokes exactly one deployment under that profile. */
  lemma DeployPerformed(args: Args, host: Host)
    requires CheckArgs(args).None? && args.action == Deploy && !args.allProfiles
    requires ResolveTarget(args.app, Deploy, Unversioned(), host).Ok?
    requires args.profile.GetOr(Config.DefaultProfile) in Config.ProfileNames(host.store)
    ensures var t := ResolveTarget(args.app, Deploy, Unversioned(), host).value;
      Run(args, host) == Ok([DeployVersion(args.profile.GetOr(Config.DefaultProfile), t.app, t.version)])
  {
    PlanDispatches(args, host);
    PlannedRaises(args, host);
  }

  /** `create` with `-a` uploads the bundle once, under the first configured
      profile, to the fixed bucket through the default connection (the first
      profile when `production` is not configured), then registers the
      version under every configured profile, in file order, from that one
      object. */
  lemma CreateAllProfiles(args: Args, host: Host)
    requires args.action == Create && args.allProfiles
    ensures Run(args, host).Ok? ==> ResolveTarget(args.app, Create, Unversioned(), host).Ok?
    ensures Run(args, host).Ok? ==>
      var r := Run(args, host).value;
      var names := Config.ProfileNames(host.store);
      var t := ResolveTarget(args.app, Create, Unversioned(), host).value;
      && |names| > 0
      && |r| == |names| + 1
      && r[0].UploadSourceBundle? && r[0].profile == names[0]
      && r[0].bundle.bucket == "dbz-build-deps"
      && r[0].bundle.key == ObjectKey(t.app, t.version)
      && r[0].bundle.connection == (if "production" in names then "production" else names[0])
      && forall i :: 0 <= i < |names| ==> r[i + 1] == CreateVersion(names[i], t.app, t.version, "dbz-build-deps", r[0].bundle.key)
  {
    if Run(args, host).Ok? {
      PlanOkDispatches(args, host);
    }
  }

  /** Without a configured profile, `create -a` selects nothing and fails on
      the first profile it uploads under, before invoking anything. */
  lemma CreateAllProfilesEmpty(args: Args, host: Host)
    requires args.action == Create && args.allProfiles && CheckArgs(args).None?
    requires ResolveTarget(args.app, Create, Unversioned(), host).Ok?
    requires |host.store| == 0
    ensures Run(args, host) == Err(Stop([], NoProfileSelected))
  {
    PlanDispatches(args, host);
  }

  /** Every operation a successful run invokes under a profile works under a
      configured one. */
  lemma TouchedProfilesConfigured(args: Args, host: Host)
    requires Run(args, host).Ok?
    ensures var r := Run(args, host).value;
      forall i :: 0 <= i < |r| && ProfileOf(r[i]).Some? ==> ProfileOf(r[i]).value in Config.ProfileNames(host.store)
  {
    if args.action != Profiles {
      PlanOkDispatches(args, host);
    }
  }

  /** With `--read-only` nothing a run invokes changes the platform or the
      object store. */
  lemma ReadOnlyChangesNothing(args: Args, host: Host)
    requires args.readOnly && Run(args, host).Ok?
    ensures forall i :: 0 <= i < |Run(args, host).value| ==> !Mutates(Run(args, host).value[i], true)
  {
    if args.action != Profiles {
      PlanOkDispatches(args, host);
    }
  }

  /** Both scripts reject the same arguments, nvdict aside. */
  lemma SameRejections(args: Args)
    requires args.action != Instances && args.format != Some("nvdict")
    ensures CheckArgs(args) == Ebizzle.CheckArgs(args)
  {
    assert args.format.Some? ==> (args.format.value in SrcFormat.All() <==> args.format.value in Format.All());
  }

  /** Past the argument check, `deploy`, `list` and `env` are planned alike
      in both scripts. */
  lemma SameDispatch(args: Args, host: Host)
    requires |host.store| > 0 && args.action in {Deploy, List, Env}
    requires CheckArgs(args).None? && Ebizzle.CheckArgs(args).None?
    ensures Plan(args, host) == Ebizzle.Run(args, host)
  {
    var target := ResolveTarget(args.app, args.action, Unversioned(), host);
    assert target == ResolveTarget(args.app, args.action, Ebizzle.Unversioned(), host) by {
      assert (args.action in Unversioned()) == (args.action in Ebizzle.Unversioned());
    }
    var profiles := SelectProfiles(args, host.store);
    if target.Ok? && profiles.Ok? {
      PlanDispatches(args, host);
      Ebizzle.RunDispatches(args, host);
    }
  }

  /** For the verbs both scripts have, apart from `create`, and apart from the
      nvdict format, both scripts plan the same operations or fail the same
      way, given a configuration to load. */
  lemma PlansAgree(args: Args, host: Host)
    requires |host.store| > 0
    requires args.action in {Deploy, List, Profiles, Env}
    requires args.format != Some("nvdict")
    ensures Plan(args, host) == Ebizzle.Run(args, host)
  {
    SameRejections(args);
    if CheckArgs(args).Some? {
      RejectedAlike(args, host);
    } else if args.action == Profiles {
      ProfilesAlike(args, host);
    } else {
      SameDispatch(args, host);
    }
  }

  /** Arguments both scripts reject the same way fail both runs alike. */
  lemma RejectedAlike(args: Args, host: Host)
    requires |host.store| > 0
    requires CheckArgs(args).Some? && CheckArgs(args) == Ebizzle.CheckArgs(args)
    ensures Plan(args, host) == Ebizzle.Run(args, host) == Err(CheckArgs(args).value)
  {
    assert Plan(args, host) == Err(CheckArgs(args).value);
    assert Ebizzle.Run(args, host) == Err(CheckArgs(args).value);
  }

  /** Both scripts plan `profiles` as its one listing. */
  lemma ProfilesAlike(args: Args, host: Host)
    requires |host.store| > 0
    requires args.action == Profiles && CheckArgs(args).None? && Ebizzle.CheckArgs(args).None?
    ensures Plan(args, host) == Ebizzle.Run(args, host) == Ok([ListProfiles(FormatArg(args))])
  {
    assert Plan(args, host) == Ok([ListProfiles(FormatArg(args))]);
  }

  /** The later script's outcome as a run of this one: its failures all come
      before the first invocation. */
  function BeforeAnyInvocation(r: Result<seq<Invocation>, Failure>): Result<seq<Invocation>, Stop> {
    match r
    case Ok(invs) => Ok(invs)
    case Err(failure) => Err(Stop([], failure))
  }

  /** For the verbs both scripts have, apart from `create`, and outside the
      nvdict and json formats, both scripts invoke the same operations or
      fail the same way, given a configuration to load. */
  lemma AgreesWithLaterScript(args: Args, host: Host)
    requires |host.store| > 0
    requires args.action in {Deploy, List, Profiles, Env}
    requires args.format != Some("nvdict") && args.format != Some("json")
    ensures Run(args, host) == BeforeAnyInvocation(Ebizzle.Run(args, host))
  {
    PlansAgree(args, host);
    assert FormatArg(args) != "json";
  }

  /** What `list_profiles` prints; the json format fails, with nothing printed. */
  function ListProfilesOutput(format: string, store: Config.Store): (r: Result<seq<Emit>, Failure>)
    ensures r.Err? <==> format == "json"
    ensures r.Err? ==> r.error == SrcFormat.JsonUnbound
  {
    SrcFormat.PrintList(Config.ProfileNames(store), Some(format))
  }

  /** Apart from json, both scripts list the profiles alike. */
  lemma ListProfilesAgrees(format: string, store: Config.Store)
    requires format != "json"
    ensures ListProfilesOutput(format, store) == Ok(Ebizzle.ListProfilesOutput(format, store))
  {
    SrcFormat.PrintListAgrees(Config.ProfileNames(store), Some(format));
  }

  /** What `describe_env` prints: the profile header, then the platform's
      error message or the environment variables; json fails, and since json
      has no header, nothing is printed before the failure. */
  function DescribeEnvOutput(profile: string, format: string, response: Result<seq<Setting>, string>): (r: Result<seq<Emit>, Failure>)
    ensures r.Err? <==> format == "json" && response.Ok?
    ensures format == "json" && response.Ok? ==> r == Err(SrcFormat.JsonUnbound)
    ensures format == "json" ==> Format.PrintProfile(profile, Some(format)) == []
    ensures response.Err? ==> r == Ok(Format.PrintProfile(profile, Some(format)) + [Say(Error, response.error)])
  {
    var header := Format.PrintProfile(profile, Some(format));
    match response
    case Err(message) => Ok(header + [Say(Error, message)])
    case Ok(settings) =>
      var lines :- SrcFormat.PrintDict(EnvVars(settings), Some(format));
      Ok(header + lines)
  }

  /** For text, bash and dockerenv both scripts describe an environment alike. */
  lemma DescribeEnvAgrees(profile: string, format: string, response: Result<seq<Setting>, string>)
    requires format != "json" && format != "nvdict"
    ensures DescribeEnvOutput(profile, format, response) == Ok(Ebizzle.DescribeEnvOutput(profile, format, response))
  {
    if response.Ok? {
      SrcFormat.PrintDictAgrees(EnvVars(response.value), Some(format));
    }
  }
}

=== FILE: src_format.dfy ===
/** The formatter of src/format.py. It keeps the text, bash and dockerenv
    renderings of ebizzle/format.py, has no name/value list format, and its
    json branches call `json.dumps` without importing `json`, so they raise
    NameError instead of printing.
 */
module SrcFormat {
  import opened Base
  import opened MyIO
  import Format

  /** `all()`: the four format names this variant accepts. */
  function All(): (r: seq<string>)
    ensures |r| == 4
    ensures forall f :: f in r <==> f in {"text", "bash", "json", "dockerenv"}
    ensures "nvdict" !in r
  {
    [Format.TextFormat, Format.BashFormat, Format.JsonFormat, Format.DockerEnvFormat]
  }

  const JsonUnbound: Failure := Raised("NameError: global name 'json' is not defined")

  /** `print_dict(dictionary, format_)`. */
  function PrintDict(d: map<string, string>, format: Option<string>): (r: Result<seq<Emit>, Failure>)
    ensures r.Err? <==> Format.Effective(format) == "json"
    ensures r.Err? ==> r.error == JsonUnbound
    ensures Format.Effective(format) == "text" ==> r == Ok(Format.Entries(d, "", " = "))
    ensures Format.Effective(format) == "dockerenv" ==> r == Ok(Format.Entries(d, "", "="))
    ensures Format.Effective(format) == "bash" ==> r == Ok(Format.Entries(d, "export ", "="))
    ensures Format.Effective(format) !in All() ==> r == Ok([])
  {
    var f := Format.Effective(format);
    if f == Format.TextFormat then Ok(Format.Entries(d, "", " = "))
    else if f == Format.DockerEnvFormat then Ok(Format.Entries(d, "", "="))
    else if f == Format.BashFormat then Ok(Format.Entries(d, "export ", "="))
    else if f == Format.JsonFormat then Err(JsonUnbound)
    else Ok([])
  }

  /** `print_list(list_, format_)`. */
  function PrintList(items: seq<string>, format: Option<string>): (r: Result<seq<Emit>, Failure>)
    ensures r.Err? <==> Format.Effective(format) == "json"
    ensures r.Err? ==> r.error == JsonUnbound
    ensures Format.Effective(format) == "text" ==>
      r.Ok? && |r.value| == |items| && forall i :: 0 <= i < |items| ==> r.value[i] == Say(Echo, items[i])
    ensures Format.Effective(format) != "text" && Format.Effective(format) != "json" ==> r == Ok([])
  {
    var f := Format.Effective(format);
    if f == Format.TextFormat then Ok(seq(|items|, i requires 0 <= i < |items| => Say(Echo, items[i])))
    else if f == Format.JsonFormat then Err(JsonUnbound)
    else Ok([])
  }

  /** Apart from json, which fails here, and nvdict, which this variant lacks,
      both formatters print the same dictionary lines. */
  lemma {:induction false} PrintDictAgrees(d: map<string, string>, format: Option<string>)
    requires Format.Effective(format) != "json" && Format.Effective(format) != "nvdict"
    ensures PrintDict(d, format) == Ok(Format.PrintDict(d, format))
  {
    var f := Format.Effective(format);
    if f !in All() {
      assert f !in Format.All();
    }
  }

  /** Apart from json, both formatters print the same list lines. */
  lemma PrintListAgrees(items: seq<string>, format: Option<string>)
    requires Format.Effective(format) != "json"
    ensures PrintList(items, format) == Ok(Format.PrintList(items, format))
  {
  }
}

=== FILE: text.dfy ===
/** The string operations the tool borrows from Python: `str.split(sep)`,
    `str.strip()` and the ordering `sorted` applies to dictionary keys.
 */
module Text {

  /** Number of occurrences of `c` in `s`. */
  function Occurrences(s: string, c: char): nat {
    if |s| == 0 then 0
    else (if s[0] == c then 1 else 0) + Occurrences(s[1..], c)
  }

  lemma {:induction false} OccurrencesZero(s: string, c: char)
    ensures Occurrences(s, c) == 0 <==> c !in s
  {
    if |s| > 0 {
      OccurrencesZero(s[1..], c);
      assert s == [s[0]] + s[1..];
    }
  }

  /** `sep.join(pieces)`. */
  function Join(pieces: seq<string>, sep: char): string {
    if |pieces| == 0 then ""
    else if |pieces| == 1 then pieces[0]
    else pieces[0] + [sep] + Join(pieces[1..], sep)
  }

  /** `s.split(sep)` with an explicit one-character separator: every
      separator ends a piece, so k separators give k + 1 pieces, and the
      empty string gives one empty piece. */
  function Split(s: string, sep: char): (r: seq<string>)
    ensures |r| == Occurrences(s, sep) + 1
    ensures forall i :: 0 <= i < |r| ==> sep !in r[i]
    ensures Join(r, sep) == s
  {
    if |s| == 0 then [""]
    else
      var rest := Split(s[1..], sep);
      if s[0] == sep then
        assert s == [sep] + s[1..];
        [""] + rest
      else
        var r := [[s[0]] + rest[0]] + rest[1..];
        assert s == [s[0]] + s[1..];
        assert Join(r, sep) == s by {
          if |rest| > 1 {
            assert Join(rest, sep) == rest[0] + [sep] + Join(rest[1..], sep);
            assert r[1..] == rest[1..];
          }
        }
        r
  }

  lemma {:induction false} SplitWithout(s: string, sep: char)
    requires sep !in s
    ensures Split(s, sep) == [s]
  {
    if |s| > 0 {
      SplitWithout(s[1..], sep);
      assert [s[0]] + s[1..] == s;
    }
  }

  /** A separator between two strings splits them apart and nothing else. */
  lemma {:induction false} SplitConcat(a: string, b: string, sep: char)
    ensures Split(a + [sep] + b, sep) == Split(a, sep) + Split(b, sep)
  {
    if |a| == 0 {
      assert a + [sep] + b == [sep] + b;
      assert ([sep] + b)[1..] == b;
    } else {
      assert (a + [sep] + b)[1..] == a[1..] + [sep] + b;
      SplitConcat(a[1..], b, sep);
    }
  }

  /** Splitting undoes joining, provided no piece holds the separator. */
  lemma {:induction false} SplitJoin(pieces: seq<string>, sep: char)
    requires |pieces| >= 1
    requires forall i :: 0 <= i < |pieces| ==> sep !in pieces[i]
    ensures Split(Join(pieces, sep), sep) == pieces
  {
    if |pieces| == 1 {
      SplitWithout(pieces[0], sep);
    } else {
      SplitJoin(pieces[1..], sep);
      SplitWithout(pieces[0], sep);
      SplitConcat(pieces[0], Join(pieces[1..], sep), sep);
      assert [pieces[0]] + pieces[1..] == pieces;
    }
  }

  /** The characters Python 2's `str.strip()` removes. */
  predicate IsSpace(c: char) {
    c == ' ' || c == '\t' || c == '\n' || c == '\r' || c == '\U{0B}' || c == '\U{0C}'
  }

  predicate AllSpace(s: string) {
    forall i :: 0 <= i < |s| ==> IsSpace(s[i])
  }

  /** Neither empty-ended nor padded: no whitespace at either end. */
  predicate Trimmed(s: string) {
    |s| == 0 || (!IsSpace(s[0]) && !IsSpace(s[|s| - 1]))
  }

  /** Length of the leading whitespace run. */
  function LeadingSpace(s: string): (k: nat)
    ensures k <= |s|
    ensures AllSpace(s[..k])
    ensures k < |s| ==> !IsSpace(s[k])
  {
    if |s| == 0 || !IsSpace(s[0]) then 0
    else
      var k := 1 + LeadingSpace(s[1..]);
      assert forall i :: 1 <= i < k ==> s[..k][i] == s[1..][..k - 1][i - 1];
      k
  }

  /** Length of `s` without its trailing whitespace run. */
  function TrailingStart(s: string): (k: nat)
    ensures k <= |s|
    ensures AllSpace(s[k..])
    ensures k > 0 ==> !IsSpace(s[k - 1])
  {
    if |s| == 0 || !IsSpace(s[|s| - 1]) then |s|
    else
      var k := TrailingStart(s[..|s| - 1]);
      assert forall i :: k <= i < |s| - 1 ==> s[i] == s[..|s| - 1][i];
      k
  }

  /** `s.strip()`: the infix of `s` left after dropping whitespace at both ends. */
  function Strip(s: string): (r: string)
    ensures Trimmed(r)
    ensures exists i, j :: 0 <= i <= j <= |s| && r == s[i..j] && AllSpace(s[..i]) && AllSpace(s[j..])
  {
    var i := LeadingSpace(s);
    var k := TrailingStart(s[i..]);
    StripBounds(s, i, k);
    s[i..i + k]
  }

  /** Given a leading whitespace run of length `i` and, past it, a trailing
      run from `k` on, the infix between the runs is trimmed and all of `s`
      after it is whitespace. */
  lemma StripBounds(s: string, i: nat, k: nat)
    requires i <= |s| && (i < |s| ==> !IsSpace(s[i]))
    requires k <= |s| - i && AllSpace(s[i..][k..]) && (k > 0 ==> !IsSpace(s[i..][k - 1]))
    ensures AllSpace(s[i + k..]) && Trimmed(s[i..i + k])
  {
    assert s[i..][k..] == s[i + k..];
    if k > 0 {
      assert s[i + k - 1] == s[i..][k - 1];
    }
    TrimmedInfix(s, i, i + k);
  }

  lemma TrimmedInfix(s: string, i: nat, j: nat)
    requires i <= j <= |s|
    requires i < j ==> !IsSpace(s[i]) && !IsSpace(s[j - 1])
    ensures Trimmed(s[i..j])
  {
  }

  /** Stripping a trimmed text padded with whitespace on both sides gives the text back. */
  lemma {:induction false} StripPadded(pre: string, t: string, post: string)
    requires AllSpace(pre) && AllSpace(post) && Trimmed(t)
    ensures Strip(pre + t + post) == t
  {
    var s := pre + t + post;
    var i := LeadingSpace(s);
    if |t| == 0 {
      assert s == pre + post;
      assert AllSpace(s) by {
        forall k | 0 <= k < |s| ensures IsSpace(s[k]) {
          if k < |pre| { assert s[k] == pre[k]; } else { assert s[k] == post[k - |pre|]; }
        }
      }
      assert s[i..] == [];
    } else {
      assert s[|pre|] == t[0];
      assert i == |pre|;
      var u := s[i..];
      assert u == t + post;
      var k := TrailingStart(u);
      assert u[|t| - 1] == t[|t| - 1];
      assert k == |t|;
      assert s[i..i + k] == t;
    }
  }

  /** Stripping twice is stripping once. */
  lemma StripIdempotent(s: string)
    ensures Strip(Strip(s)) == Strip(s)
  {
    StripPadded("", Strip(s), "");
    assert "" + Strip(s) + "" == Strip(s);
  }

  /** Python's ordering of byte and unicode strings: lexicographic on code points. */
  predicate LexLe(a: string, b: string) {
    |a| == 0 || (|b| > 0 && (a[0] < b[0] || (a[0] == b[0] && LexLe(a[1..], b[1..]))))
  }

  lemma LexAntisymmetric(a: string, b: string)
    requires LexLe(a, b) && LexLe(b, a)
    ensures a == b
  {
    if |a| > 0 { LexAntisymmetric(a[1..], b[1..]); }
  }

  lemma LexTotal(a: string, b: string)
    ensures LexLe(a, b) || LexLe(b, a)
  {
    if |a| > 0 && |b| > 0 && a[0] == b[0] { LexTotal(a[1..], b[1..]); }
  }

  lemma LexTransitive(a: string, b: string, c: string)
    requires LexLe(a, b) && LexLe(b, c)
    ensures LexLe(a, c)
  {
    if |a| > 0 && a[0] == b[0] && b[0] == c[0] { LexTransitive(a[1..], b[1..], c[1..]); }
  }

  lemma LeastExists(s: set<string>)
    requires s != {}
    ensures exists m :: m in s && forall x :: x in s ==> LexLe(m, x)
  {
    var m := LeastWitness(s);
  }

  /** A least element of a non-empty set, found by taking one element out. */
  lemma LeastWitness(s: set<string>) returns (m: string)
    requires s != {}
    ensures m in s && forall x :: x in s ==> LexLe(m, x)
  {
    var y :| y in s;
    var rest := s - {y};
    if rest == {} {
      LexTotal(y, y);
      forall x | x in s ensures LexLe(y, x) {
        assert x !in rest;
      }
      m := y;
    } else {
      var least := LeastWitness(rest);
      LeastStep(rest, y, least);
      assert rest + {y} == s;
      m := if LexLe(least, y) then least else y;
    }
  }

  /** Adding `y` to a set whose least element is `m`: the new least element
      is the smaller of the two. */
  lemma LeastStep(rest: set<string>, y: string, m: string)
    requires m in rest && forall x :: x in rest ==> LexLe(m, x)
    ensures var l := if LexLe(m, y) then m else y;
      l in rest + {y} && forall x :: x in rest + {y} ==> LexLe(l, x)
  {
    LexTotal(m, y);
    LexTotal(y, y);
    if !LexLe(m, y) {
      forall x | x in rest ensures LexLe(y, x) {
        LexTransitive(y, m, x);
      }
    }
  }

  /** The smallest string of a non-empty set. */
  function Least(s: set<string>): (m: string)
    requires s != {}
    ensures m in s && forall x :: x in s ==> LexLe(m, x)
  {
    LeastExists(s);
    assert forall a, b :: LexLe(a, b) && LexLe(b, a) ==> a == b by {
      forall a, b | LexLe(a, b) && LexLe(b, a) ensures a == b { LexAntisymmetric(a, b); }
    }
    var m :| m in s && forall x :: x in s ==> LexLe(m, x); m
  }

  predicate StrictlyAscending(s: seq<string>) {
    forall i, j :: 0 <= i < j < |s| ==> LexLe(s[i], s[j]) && s[i] != s[j]
  }

  /** `sorted(keys)`: every key exactly once, in ascending order. */
  function Sorted(keys: set<string>): (r: seq<string>)
    ensures |r| == |keys|
    ensures forall x :: x in r <==> x in keys
    ensures StrictlyAscending(r)
    decreases |keys|
  {
    if keys == {} then []
    else
      var m := Least(keys);
      var rest := Sorted(keys - {m});
      SortedStep(keys, m, rest);
      [m] + rest
  }

  /** The least key put before the other keys, sorted, sorts all the keys. */
  lemma SortedStep(keys: set<string>, m: string, rest: seq<string>)
    requires m in keys && forall x :: x in keys ==> LexLe(m, x)
    requires |rest| == |keys - {m}| && (forall x :: x in rest <==> x in keys - {m}) && StrictlyAscending(rest)
    ensures |[m] + rest| == |keys|
    ensures forall x :: x in [m] + rest <==> x in keys
    ensures StrictlyAscending([m] + rest)
  {
    assert |keys - {m}| == |keys| - 1;
    forall x ensures x in [m] + rest <==> x in keys {
      assert x in [m] + rest <==> x == m || x in rest;
    }
    forall j | 0 <= j < |rest| ensures LexLe(m, rest[j]) && m != rest[j] {
      assert rest[j] in keys - {m};
    }
    ConsAscending(m, rest);
  }

  /** A key below every element of an ascending sequence extends it. */
  lemma ConsAscending(m: string, rest: seq<string>)
    requires StrictlyAscending(rest)
    requires forall j :: 0 <= j < |rest| ==> LexLe(m, rest[j]) && m != rest[j]
    ensures StrictlyAscending([m] + rest)
  {
    var r := [m] + rest;
    forall i, j | 0 <= i < j < |r| ensures LexLe(r[i], r[j]) && r[i] != r[j] {
      if i == 0 {
        assert r[j] == rest[j - 1];
      } else {
        assert r[i] == rest[i - 1] && r[j] == rest[j - 1];
      }
    }
  }
}

=== FILE: workflow.dfy ===
/** The deployment workflow both command-line scripts (ebizzle/ebizzle.py and
    src/ebizzle.py) share, written once: the command-line record, the outside
    world as an input, resolution of the `app[:version]` token, profile
    selection, the source-bundle upload decisions, the request payloads of the
    two mutating service calls and what read-only mode prints instead, and the
    pure shaping of the environment and inventory listings.
 */
module Workflow {
  import opened Base
  import Text
  import Config
  import opened MyIO

  /** The verbs of the command line. */
  datatype Action = Create | Deploy | List | Profiles | Env | Instances {
    function Name(): string {
      match this
      case Create => "create"
      case Deploy => "deploy"
      case List => "list"
      case Profiles => "profiles"
      case Env => "env"
      case Instances => "instances"
    }
  }

  /** The parsed command line: `-s`, `--read-only`, `-p` (None when not
      given), `-a`, `-f` (None when not given), the verb, and `app[:version]`. */
  datatype Args = Args(
    sourceBundle: Option<string>,
    readOnly: bool,
    profile: Option<string>,
    allProfiles: bool,
    format: Option<string>,
    action: Action,
    app: Option<string>)

  /** The world the scripts observe: the config file, the regular files under
      the working directory, whether `git status` succeeds there, the output of
      `docker/tag_helper.sh` and of `git describe --tags` (None when the
      command fails), the (bucket, key) objects already stored, and the
      profiles under which the platform refuses to describe the environment's
      configuration settings. */
  datatype Host = Host(
    store: Config.Store,
    files: set<string>,
    inGitRepo: bool,
    tagHelper: Option<string>,
    gitDescribe: Option<string>,
    storedObjects: set<(string, string)>,
    describeFailures: set<string>)

  const TagHelperPath: string := "docker/tag_helper.sh"

  /** `get_app_version()`: outside a git repository the run panics; a tag
      helper script that exists and succeeds wins; otherwise the nearest git
      tag; with neither the run panics. Outputs are stripped of whitespace. */
  function AppVersion(host: Host): (r: Result<string, Failure>)
    ensures r.Ok? <==> host.inGitRepo && ((TagHelperPath in host.files && host.tagHelper.Some?) || host.gitDescribe.Some?)
    ensures !host.inGitRepo ==> r == Err(Panic("Not a git repo, can't obtain application's version."))
    ensures r.Ok? && TagHelperPath in host.files && host.tagHelper.Some? ==> r.value == Text.Strip(host.tagHelper.value)
    ensures r.Ok? && !(TagHelperPath in host.files && host.tagHelper.Some?) ==> r.value == Text.Strip(host.gitDescribe.value)
    ensures r.Ok? ==> Text.Trimmed(r.value)
    ensures host.inGitRepo && r.Err? ==> r == Err(Panic("Can't obtain app's version. Do you tag, bro?"))
  {
    if !host.inGitRepo then Err(Panic("Not a git repo, can't obtain application's version."))
    else if TagHelperPath in host.files && host.tagHelper.Some? then Ok(Text.Strip(host.tagHelper.value))
    else if host.gitDescribe.Some? then Ok(Text.Strip(host.gitDescribe.value))
    else Err(Panic("Can't obtain app's version. Do you tag, bro?"))
  }

  /** How `token.split(":")` unpacks into `app, version`. */
  datatype Shape = Bare | Pair(app: string, version: string) | Ambiguous

  function TokenShape(token: string): (r: Shape)
    ensures r.Bare? <==> ':' !in token
    ensures r.Pair? <==> Text.Occurrences(token, ':') == 1
    ensures r.Ambiguous? <==> Text.Occurrences(token, ':') >= 2
    ensures r.Pair? ==> r.app + ":" + r.version == token && ':' !in r.app && ':' !in r.version
  {
    var pieces := Text.Split(token, ':');
    Text.OccurrencesZero(token, ':');
    if |pieces| == 1 then Bare
    else if |pieces| == 2 then
      assert Text.Join(pieces, ':') == pieces[0] + [':'] + pieces[1];
      Pair(pieces[0], pieces[1])
    else Ambiguous
  }

  /** Splitting `app:version` gives back the pair it was written from. */
  lemma TokenRoundTrip(app: string, version: string)
    requires ':' !in app && ':' !in version
    ensures TokenShape(app + ":" + version) == Pair(app, version)
  {
    Text.SplitConcat(app, version, ':');
    Text.SplitWithout(app, ':');
    Text.SplitWithout(version, ':');
  }

  /** The application and version a run works on; None where Python has None. */
  datatype Target = Target(app: Option<string>, version: Option<string>)

  const TooManyValues: Failure := Raised("ValueError: too many values to unpack")

  /** Resolution of the optional `app[:version]` token. No token: no app and
      no version. One colon: both halves. Two or more: the ValueError escapes.
      No colon: the token is the app, and the version is None for the verbs in
      `unversioned`, otherwise derived from the repository. */
  function ResolveTarget(token: Option<string>, action: Action, unversioned: set<Action>, host: Host): (r: Result<Target, Failure>)
    ensures token.None? ==> r == Ok(Target(None, None))
    ensures token.Some? && TokenShape(token.value).Pair? ==>
      r == Ok(Target(Some(TokenShape(token.value).app), Some(TokenShape(token.value).version)))
    ensures token.Some? && TokenShape(token.value).Ambiguous? ==> r == Err(TooManyValues)
    ensures token.Some? && ':' !in token.value && action in unversioned ==> r == Ok(Target(token, None))
    ensures token.Some? && ':' !in token.value && action !in unversioned ==>
      (r.Ok? <==> AppVersion(host).Ok?) && (r.Ok? ==> r.value == Target(token, Some(AppVersion(host).value)))
    ensures r.Ok? && r.value.app.Some? ==> ':' !in r.value.app.value
  {
    match token
    case None => Ok(Target(None, None))
    case Some(t) =>
      match TokenShape(t)
      case Pair(app, version) => Ok(Target(Some(app), Some(version)))
      case Ambiguous => Err(TooManyValues)
      case Bare =>
        if action in unversioned then Ok(Target(token, None))
        else
          var version :- AppVersion(host);
          Ok(Target(token, Some(version)))
  }

  const ProfileNotFound: string := "Profile not found: "

  /** Profile selection: every configured profile under `-a`, in file order;
      otherwise the `-p` profile (default `test`), which must be configured. */
  function SelectProfiles(args: Args, store: Config.Store): (r: Result<seq<string>, Failure>)
    ensures args.allProfiles ==> r == Ok(Config.ProfileNames(store))
    ensures !args.allProfiles ==>
      var p := args.profile.GetOr(Config.DefaultProfile);
      (r.Ok? <==> p in Config.ProfileNames(store))
      && (r.Ok? ==> r.value == [p])
      && (r.Err? ==> r.error == Panic(ProfileNotFound + p))
    ensures r.Ok? ==> forall i :: 0 <= i < |r.value| ==> r.value[i] in Config.ProfileNames(store)
  {
    var names := Config.ProfileNames(store);
    if args.allProfiles then Ok(names)
    else
      var p := args.profile.GetOr(Config.DefaultProfile);
      if p in names then Ok([p]) else Err(Panic(ProfileNotFound + p))
  }

  /** Where a build leaves the bundle when no path is given, tried in order. */
  function BundleCandidates(app: Option<string>, version: Option<string>): seq<string> {
    ["target/" + Show(app) + "-" + Show(version) + ".zip", "target/source-bundle.zip"]
  }

  const BundleNotFound: Failure := Panic("Source bundle not found.")

  /** The bundle path `upload_source_bundle` settles on. A non-empty given path
      is used as is but must exist; an empty or missing one falls back to the
      first existing conventional path; with none the run panics. */
  function ResolveBundle(given: Option<string>, app: Option<string>, version: Option<string>, files: set<string>): (r: Result<string, Failure>)
    ensures r.Ok? ==> r.value in files
    ensures r.Err? ==> r.error == BundleNotFound
    ensures given.Some? && given.value != "" ==> (r.Ok? <==> given.value in files) && (r.Ok? ==> r.value == given.value)
    ensures (given.None? || given == Some("")) ==>
      var c := BundleCandidates(app, version);
      (c[0] in files ==> r == Ok(c[0]))
      && (c[0] !in files && c[1] in files ==> r == Ok(c[1]))
      && (c[0] !in files && c[1] !in files ==> r.Err?)
  {
    if given.Some? && given.value != "" then
      if given.value in files then Ok(given.value) else Err(BundleNotFound)
    else
      var c := BundleCandidates(app, version);
      if c[0] in files then Ok(c[0])
      else if c[1] in files then Ok(c[1])
      else Err(BundleNotFound)
  }

  /** The storage key of a version's bundle: `<app>/<app>-<version>.zip`. */
  function ObjectKey(app: Option<string>, version: Option<string>): string {
    Show(app) + "/" + Show(app) + "-" + Show(version) + ".zip"
  }

  /** The key names the application twice: as its folder and as the prefix of
      the file name; for an app without `/` the folder is the app itself. */
  lemma ObjectKeyFolder(app: string, version: Option<string>)
    requires '/' !in app
    ensures Text.Split(ObjectKey(Some(app), version), '/')[0] == app
  {
    var rest := app + "-" + Show(version) + ".zip";
    var key := ObjectKey(Some(app), version);
    assert key == app + "/" + app + "-" + Show(version) + ".zip";
    assert key == app + ['/'] + rest;
    Text.SplitConcat(app, rest, '/');
    Text.SplitWithout(app, '/');
    assert Text.Split(key, '/') == [app] + Text.Split(rest, '/');
  }

  /** The connection profile `get_s3_conn` ends up with: the requested one if
      configured, otherwise the first configured profile. */
  function ConnectionProfile(requested: string, store: Config.Store): (r: Result<string, Failure>)
    ensures requested in Config.ProfileNames(store) ==> r == Ok(requested)
    ensures requested !in Config.ProfileNames(store) && |store| > 0 ==> r == Ok(Config.ProfileNames(store)[0])
    ensures r.Err? <==> |store| == 0
  {
    var names := Config.ProfileNames(store);
    if requested in names then Ok(requested)
    else if |names| == 0 then Err(Raised("IndexError: list index out of range"))
    else Ok(names[0])
  }

  /** The credentials `get_s3_conn(requested)` connects with. */
  function S3Credentials(requested: string, store: Config.Store): (r: Result<Config.Credentials, Failure>)
    ensures |store| == 0 ==> r == Err(Raised("IndexError: list index out of range"))
    ensures |store| > 0 ==> ConnectionProfile(requested, store).Ok?
    ensures |store| > 0 ==> r == Config.GetCredentials(store, ConnectionProfile(requested, store).value)
  {
    var p :- ConnectionProfile(requested, store);
    Config.GetCredentials(store, p)
  }

  /** What happens to the bundle object. */
  datatype Write = Reuse | Store | DryRun

  /** The upload decided on: the local file, the bucket and key it goes to,
      the profile whose credentials the storage connection uses, and the write. */
  datatype Bundle = Bundle(path: string, bucket: string, key: string, connection: string, write: Write)

  /** `upload_source_bundle`: find the bundle, connect with the credentials of
      `connection`, then reuse an existing object unless `overwrite`, and only
      write when not read-only. The key is the same whatever happens. */
  function PlanUpload(given: Option<string>, app: Option<string>, version: Option<string>, host: Host,
                      bucket: string, connection: string, readOnly: bool, overwrite: bool): (r: Result<Bundle, Failure>)
    ensures r.Ok? <==> ResolveBundle(given, app, version, host.files).Ok? && S3Credentials(connection, host.store).Ok?
    ensures ResolveBundle(given, app, version, host.files).Err? ==> r == Err(ResolveBundle(given, app, version, host.files).error)
    ensures ResolveBundle(given, app, version, host.files).Ok? && S3Credentials(connection, host.store).Err? ==>
      r == Err(S3Credentials(connection, host.store).error)
    ensures r.Ok? ==> r.value.key == ObjectKey(app, version) && r.value.bucket == bucket
    ensures r.Ok? ==> r.value.connection == ConnectionProfile(connection, host.store).value
    ensures r.Ok? ==> r.value.path == ResolveBundle(given, app, version, host.files).value
    ensures r.Ok? ==> (r.value.write == Reuse <==> !overwrite && (bucket, ObjectKey(app, version)) in host.storedObjects)
    ensures r.Ok? ==> (r.value.write == Store <==> !readOnly && !(!overwrite && (bucket, ObjectKey(app, version)) in host.storedObjects))
    ensures r.Ok? && r.value.write == Store ==> !readOnly
    ensures r.Ok? && readOnly ==> r.value.write != Store
  {
    var path :- ResolveBundle(given, app, version, host.files);
    var _ :- S3Credentials(connection, host.store);
    var used := ConnectionProfile(connection, host.store).value;
    var key := ObjectKey(app, version);
    var write := if !overwrite && (bucket, key) in host.storedObjects then Reuse
                 else if readOnly then DryRun
                 else Store;
    Ok(Bundle(path, bucket, key, used, write))
  }

  /** The search's report on a conventional path that does not exist. */
  function NotFoundLine(path: string): string {
    "Source bundle not found: " + path
  }

  /** The search's report on the first conventional path that exists. */
  function FoundLine(path: string): string {
    "Source bundle found: " + path
  }

  /** The lines the search for a bundle prints when no path is given: each
      conventional path is reported not found until one is found. */
  function SearchLog(candidates: seq<string>, files: set<string>): (r: seq<Emit>)
    ensures |r| <= |candidates|
    ensures forall i :: 0 <= i < |r| ==> r[i].Say? && r[i].level == Echo
    ensures forall i :: 0 <= i < |r| - 1 ==> r[i].text == NotFoundLine(candidates[i]) && candidates[i] !in files
    ensures |r| > 0 && r[|r| - 1].text == FoundLine(candidates[|r| - 1]) ==> candidates[|r| - 1] in files
    ensures (forall c :: c in candidates ==> c !in files) ==> |r| == |candidates|
    ensures (forall c :: c in candidates ==> c !in files) ==>
      forall i :: 0 <= i < |r| ==> r[i].text == NotFoundLine(candidates[i])
    ensures |r| > 0 && candidates[|r| - 1] in files ==> r[|r| - 1].text == FoundLine(candidates[|r| - 1])
    ensures (|r| > 0 && candidates[|r| - 1] in files) || forall c :: c in candidates ==> c !in files
  {
    if |candidates| == 0 then []
    else if candidates[0] in files then [Say(Echo, FoundLine(candidates[0]))]
    else
      var rest := SearchLog(candidates[1..], files);
      [Say(Echo, NotFoundLine(candidates[0]))] + rest
  }

  /** The search log ends by naming the path `ResolveBundle` settles on. */
  lemma SearchLogNamesChoice(app: Option<string>, version: Option<string>, files: set<string>)
    requires ResolveBundle(None, app, version, files).Ok?
    ensures var log := SearchLog(BundleCandidates(app, version), files);
      |log| > 0 && log[|log| - 1] == Say(Echo, FoundLine(ResolveBundle(None, app, version, files).value))
  {
    var c := BundleCandidates(app, version);
    if c[0] !in files {
      assert c[1..][0] == c[1];
    }
  }

  /** Without a given path, the line just before the bucket names the bundle
      the upload settled on. */
  lemma UploadOutputNamesBundle(profile: string, given: Option<string>, app: Option<string>, version: Option<string>,
                                host: Host, bucket: string, connection: string, readOnly: bool, overwrite: bool)
    requires given.None? || given == Some("")
    requires PlanUpload(given, app, version, host, bucket, connection, readOnly, overwrite).Ok?
    ensures var b := PlanUpload(given, app, version, host, bucket, connection, readOnly, overwrite).value;
      var r := UploadOutput(profile, given, app, version, host.files, b);
      var log := SearchLog(BundleCandidates(app, version), host.files);
      && |log| > 0
      && r[2 + |log|] == Say(Echo, FoundLine(b.path))
      && r[3 + |log|] == Say(Echo, BucketLine(b.bucket))
  {
    var b := PlanUpload(given, app, version, host, bucket, connection, readOnly, overwrite).value;
    BundleIsChoice(given, app, version, host, bucket, connection, readOnly, overwrite);
    LogEndsBeforeBucket(profile, given, app, version, host.files, b);
  }

  /** Without a given path, a planned upload takes the path the search settles on. */
  lemma BundleIsChoice(given: Option<string>, app: Option<string>, version: Option<string>,
                       host: Host, bucket: string, connection: string, readOnly: bool, overwrite: bool)
    requires given.None? || given == Some("")
    requires PlanUpload(given, app, version, host, bucket, connection, readOnly, overwrite).Ok?
    ensures ResolveBundle(None, app, version, host.files).Ok?
    ensures PlanUpload(given, app, version, host, bucket, connection, readOnly, overwrite).value.path
      == ResolveBundle(None, app, version, host.files).value
  {
    assert ResolveBundle(None, app, version, host.files) == ResolveBundle(given, app, version, host.files);
  }

  /** Without a given path, the output of an upload of the bundle the search
      settles on reports that bundle found just before the bucket line. */
  lemma LogEndsBeforeBucket(profile: string, given: Option<string>, app: Option<string>, version: Option<string>,
                            files: set<string>, b: Bundle)
    requires given.None? || given == Some("")
    requires ResolveBundle(None, app, version, files).Ok? && b.path == ResolveBundle(None, app, version, files).value
    ensures var r := UploadOutput(profile, given, app, version, files, b);
      var log := SearchLog(BundleCandidates(app, version), files);
      && |log| > 0
      && r[2 + |log|] == Say(Echo, FoundLine(b.path))
      && r[3 + |log|] == Say(Echo, BucketLine(b.bucket))
  {
    SearchLogNamesChoice(app, version, files);
    var log := SearchLog(BundleCandidates(app, version), files);
    var r := UploadOutput(profile, given, app, version, files, b);
    assert r[3..3 + |log|][|log| - 1] == r[2 + |log|];
  }

  /** The fixed lines of `upload_source_bundle`. */
  const NoPathNote: string := "Source bundle location not given, trying alternative locations."
  const ReuseNote: string := "Source bundle already exists."

  function UploadTitle(app: Option<string>, version: Option<string>): string {
    "Upload source bundle for " + Show(app) + ":" + Show(version)
  }

  function BucketLine(bucket: string): string {
    "Bucket: " + bucket
  }

  function KeyLine(key: string): string {
    "Key: " + key
  }

  function DryRunNote(path: string): string {
    "READ ONLY: write " + path + " contents to S3 key."
  }

  /** The console output of `upload_source_bundle` for a planned upload: a
      profile header in text, the title, the search log when no path was given,
      the bucket and key, and a note when the object is reused or, read-only,
      not written. */
  function UploadOutput(profile: string, given: Option<string>, app: Option<string>, version: Option<string>,
                        files: set<string>, bundle: Bundle): (r: seq<Emit>)
    ensures |r| == (if given.Some? && given.value != "" then 4 else 5 + |SearchLog(BundleCandidates(app, version), files)|)
      + (if bundle.write == Store then 0 else 1)
    ensures r[0] == Say(Info, "[profile:" + profile + "]")
    ensures r[1] == Say(Echo, UploadTitle(app, version))
    ensures given.Some? && given.value != "" ==>
      && |r| <= 5
      && r[2] == Say(Echo, BucketLine(bundle.bucket)) && r[3] == Say(Echo, KeyLine(bundle.key))
    ensures !(given.Some? && given.value != "") ==>
      var log := SearchLog(BundleCandidates(app, version), files);
      && 5 + |log| <= |r| <= 6 + |log|
      && r[2] == Say(Echo, NoPathNote)
      && r[3..3 + |log|] == log
      && r[3 + |log|] == Say(Echo, BucketLine(bundle.bucket)) && r[4 + |log|] == Say(Echo, KeyLine(bundle.key))
    ensures Say(Echo, BucketLine(bundle.bucket)) in r && Say(Echo, KeyLine(bundle.key)) in r
    ensures bundle.write == Store ==> r[|r| - 1] == Say(Echo, KeyLine(bundle.key))
    ensures bundle.write == Reuse ==> r[|r| - 1] == Say(Echo, ReuseNote)
    ensures bundle.write == DryRun ==> r[|r| - 1] == Say(Echo, DryRunNote(bundle.path))
  {
    var head := [Say(Info, "[profile:" + profile + "]"), Say(Echo, UploadTitle(app, version))];
    var located := [Say(Echo, BucketLine(bundle.bucket)), Say(Echo, KeyLine(bundle.key))];
    Layout(head, SearchSection(given, app, version, files), located, Closing(bundle))
  }

  /** The note that closes the upload output: none when the bundle is
      written, otherwise why it is not. */
  function Closing(bundle: Bundle): (r: seq<Emit>)
    ensures bundle.write == Store <==> r == []
    ensures bundle.write == Reuse ==> r == [Say(Echo, ReuseNote)]
    ensures bundle.write == DryRun ==> r == [Say(Echo, DryRunNote(bundle.path))]
  {
    match bundle.write
    case Store => []
    case Reuse => [Say(Echo, ReuseNote)]
    case DryRun => [Say(Echo, DryRunNote(bundle.path))]
  }

  /** The upload output assembled from its parts: two head lines, the search
      section, the bucket and key lines, then at most one closing note. */
  function Layout(head: seq<Emit>, search: seq<Emit>, located: seq<Emit>, tail: seq<Emit>): (r: seq<Emit>)
    requires |head| == 2 && |located| == 2 && |tail| <= 1
    ensures |r| == 4 + |search| + |tail|
    ensures r[0] == head[0] && r[1] == head[1]
    ensures r[2..2 + |search|] == search
    ensures |search| > 0 ==> r[2] == search[0] && r[3..2 + |search|] == search[1..]
    ensures r[2 + |search|] == located[0] && r[3 + |search|] == located[1]
    ensures located[0] in r && located[1] in r
    ensures |tail| == 0 ==> r[|r| - 1] == located[1]
    ensures |tail| == 1 ==> r[|r| - 1] == tail[0]
  {
    var front := head + search;
    var r := front + located + tail;
    assert r[0] == head[0] && r[1] == head[1];
    assert r[2..2 + |search|] == front[2..] == search;
    assert r[2 + |search|] == located[0] && r[3 + |search|] == located[1];
    r
  }

  /** What the bundle search prints: nothing for a given path; otherwise a
      note that no path was given, then the search log. */
  function SearchSection(given: Option<string>, app: Option<string>, version: Option<string>, files: set<string>): (r: seq<Emit>)
    ensures given.Some? && given.value != "" ==> r == []
    ensures !(given.Some? && given.value != "") ==>
      && |r| == 1 + |SearchLog(BundleCandidates(app, version), files)|
      && r[0] == Say(Echo, NoPathNote)
      && r[1..] == SearchLog(BundleCandidates(app, version), files)
  {
    if given.Some? && given.value != "" then []
    else [Say(Echo, NoPathNote)] + SearchLog(BundleCandidates(app, version), files)
  }

  /** Keyword arguments of a service request; a value may be None. */
  type Payload = map<string, Option<string>>

  /** The arguments `create_version` registers a version with. */
  function CreateVersionPayload(app: Option<string>, version: Option<string>, bucket: string, key: string): (p: Payload)
    ensures p.Keys == {"application_name", "version_label", "description", "s3_bucket", "s3_key"}
    ensures p["description"] == p["version_label"] == version
    ensures p["application_name"] == app && p["s3_bucket"] == Some(bucket) && p["s3_key"] == Some(key)
  {
    map["application_name" := app, "version_label" := version, "description" := version,
        "s3_bucket" := Some(bucket), "s3_key" := Some(key)]
  }

  /** The arguments `deploy_version` updates the environment with: the
      environment is named after the application. */
  function DeployPayload(app: Option<string>, version: Option<string>): (p: Payload)
    ensures p.Keys == {"environment_name", "version_label"}
    ensures p["environment_name"] == app && p["version_label"] == version
  {
    map["environment_name" := app, "version_label" := version]
  }

  /** An order that lists every key of the payload exactly once: how a Python 2
      dict happens to iterate, which the model leaves open. */
  predicate IteratesOver(order: seq<string>, p: Payload) {
    && (forall k :: k in order ==> k in p)
    && (forall k :: k in p ==> k in order)
    && (forall i, j :: 0 <= i < j < |order| ==> order[i] != order[j])
  }

  /** What read-only mode prints instead of a request: a title, then one
      `  key => value` line per argument. */
  function ReadOnlyReport(title: string, p: Payload, order: seq<string>): (r: seq<Emit>)
    requires IteratesOver(order, p)
    ensures |r| == |order| + 1 && |order| == |p| && r[0] == Say(Echo, title)
    ensures forall i :: 0 <= i < |order| ==> r[i + 1] == Say(Echo, "  " + order[i] + " => " + Show(p[order[i]]))
  {
    OrderCoversPayload(order, p);
    [Say(Echo, title)] + seq(|order|, i requires 0 <= i < |order| => Say(Echo, "  " + order[i] + " => " + Show(p[order[i]])))
  }

  /** An iteration order has one position per key. */
  lemma OrderCoversPayload(order: seq<string>, p: Payload)
    requires IteratesOver(order, p)
    ensures |order| == |p|
  {
    var keys := set i | 0 <= i < |order| :: order[i];
    assert keys == p.Keys;
    DistinctCardinality(order);
  }

  /** A sequence without repetitions has as many elements as positions. */
  lemma {:induction false} DistinctCardinality(s: seq<string>)
    requires forall i, j :: 0 <= i < j < |s| ==> s[i] != s[j]
    ensures |set i | 0 <= i < |s| :: s[i]| == |s|
  {
    if |s| > 0 {
      var init := s[..|s| - 1];
      DistinctCardinality(init);
      var before := set i | 0 <= i < |init| :: init[i];
      var all := set i | 0 <= i < |s| :: s[i];
      assert all == before + {s[|s| - 1]};
      assert s[|s| - 1] !in before;
    }
  }

  /** A request to the hosting platform that changes it. */
  datatype Request = CreateApplicationVersion(args: Payload) | UpdateEnvironment(args: Payload)

  /** What an operation does, in order: console output, or a request sent
      under a profile's credentials. */
  datatype Event = Out(e: Emit) | Send(profile: string, request: Request)

  function Outs(es: seq<Emit>): (r: seq<Event>)
    ensures |r| == |es| && forall i :: 0 <= i < |r| ==> r[i] == Out(es[i])
  {
    seq(|es|, i requires 0 <= i < |es| => Out(es[i]))
  }

  function Sends(events: seq<Event>): nat {
    if |events| == 0 then 0 else (if events[0].Send? then 1 else 0) + Sends(events[1..])
  }

  lemma {:induction false} SendsConcat(a: seq<Event>, b: seq<Event>)
    ensures Sends(a + b) == Sends(a) + Sends(b)
  {
    if |a| == 0 {
      assert a + b == b;
    } else {
      assert (a + b)[0] == a[0];
      assert (a + b)[1..] == a[1..] + b;
      SendsConcat(a[1..], b);
    }
  }

  lemma {:induction false} OutsSendNothing(es: seq<Emit>)
    ensures Sends(Outs(es)) == 0
  {
    if |es| > 0 {
      assert Outs(es)[1..] == Outs(es[1..]);
      OutsSendNothing(es[1..]);
    }
  }

  /** The events of a read-only call: its output, and no request. */
  lemma ReportSendsNothing(head: seq<Emit>, report: seq<Emit>)
    ensures Sends(Outs(head) + Outs(report)) == 0
  {
    OutsSendNothing(head);
    OutsSendNothing(report);
    SendsConcat(Outs(head), Outs(report));
  }

  /** The events of a live call: its output, then exactly one request, last. */
  lemma LiveSendsOnce(head: seq<Emit>, profile: string, request: Request)
    ensures Sends(Outs(head) + [Send(profile, request)]) == 1
  {
    var send := [Send(profile, request)];
    OutsSendNothing(head);
    SendsConcat(Outs(head), send);
    assert send[1..] == [];
  }

  /** Every argument line of the report shows up in the events. */
  lemma ReportListed(head: seq<Emit>, title: string, p: Payload, order: seq<string>)
    requires IteratesOver(order, p)
    ensures forall k :: k in p ==> Out(Say(Echo, "  " + k + " => " + Show(p[k]))) in Outs(head) + Outs(ReadOnlyReport(title, p, order))
  {
    var report := ReadOnlyReport(title, p, order);
    var events := Outs(head) + Outs(report);
    var tail := Outs(report);
    forall k | k in p ensures Out(Say(Echo, "  " + k + " => " + Show(p[k]))) in events {
      var i :| 0 <= i < |order| && order[i] == k;
      assert tail[i + 1] == Out(report[i + 1]);
    }
  }

  /** `create_version`: a profile header, the title line, then either the
      registration request or, read-only, a report of its arguments. */
  function CreateVersionEvents(profile: string, app: Option<string>, version: Option<string>, bucket: string, key: string,
                               readOnly: bool, order: seq<string>): seq<Event>
    requires IteratesOver(order, CreateVersionPayload(app, version, bucket, key))
  {
    var payload := CreateVersionPayload(app, version, bucket, key);
    var head := [Say(Info, "[profile:" + profile + "]"), Raw("Create version " + Show(app) + ":" + Show(version))];
    if readOnly then Outs(head) + Outs(ReadOnlyReport("READ_ONLY: Create EB application version:", payload, order))
    else Outs(head) + [Send(profile, CreateApplicationVersion(payload))]
  }

  /** Read-only, `create_version` sends nothing and prints every argument it
      would have sent; otherwise it sends the registration request exactly once. */
  lemma CreateVersionRequests(profile: string, app: Option<string>, version: Option<string>, bucket: string, key: string,
                              readOnly: bool, order: seq<string>)
    requires IteratesOver(order, CreateVersionPayload(app, version, bucket, key))
    ensures var r := CreateVersionEvents(profile, app, version, bucket, key, readOnly, order);
      && r[0] == Out(Say(Info, "[profile:" + profile + "]"))
      && (readOnly ==> Sends(r) == 0)
      && (readOnly ==> forall k :: k in CreateVersionPayload(app, version, bucket, key) ==>
            Out(Say(Echo, "  " + k + " => " + Show(CreateVersionPayload(app, version, bucket, key)[k]))) in r)
      && (!readOnly ==> Sends(r) == 1 && r[|r| - 1] == Send(profile, CreateApplicationVersion(CreateVersionPayload(app, version, bucket, key))))
  {
    var payload := CreateVersionPayload(app, version, bucket, key);
    var head := [Say(Info, "[profile:" + profile + "]"), Raw("Create version " + Show(app) + ":" + Show(version))];
    if readOnly {
      var report := ReadOnlyReport("READ_ONLY: Create EB application version:", payload, order);
      ReportSendsNothing(head, report);
      ReportListed(head, "READ_ONLY: Create EB application version:", payload, order);
    } else {
      LiveSendsOnce(head, profile, CreateApplicationVersion(payload));
    }
  }

  /** `deploy_version`: a profile header, the title line, then either the
      environment update or, read-only, a report of its arguments. */
  function DeployVersionEvents(profile: string, app: Option<string>, version: Option<string>,
                               readOnly: bool, order: seq<string>): seq<Event>
    requires IteratesOver(order, DeployPayload(app, version))
  {
    var payload := DeployPayload(app, version);
    var head := [Say(Info, "[profile:" + profile + "]"), Say(Echo, "Deploy version " + Show(app) + ":" + Show(version))];
    if readOnly then Outs(head) + Outs(ReadOnlyReport("READ_ONLY: Update EB environment:", payload, order))
    else Outs(head) + [Send(profile, UpdateEnvironment(payload))]
  }

  /** Read-only, `deploy_version` sends nothing and prints both arguments;
      otherwise it sends the environment update exactly once. */
  lemma DeployVersionRequests(profile: string, app: Option<string>, version: Option<string>, readOnly: bool, order: seq<string>)
    requires IteratesOver(order, DeployPayload(app, version))
    ensures var r := DeployVersionEvents(profile, app, version, readOnly, order);
      && r[0] == Out(Say(Info, "[profile:" + profile + "]"))
      && (readOnly ==> Sends(r) == 0)
      && (readOnly ==> forall k :: k in DeployPayload(app, version) ==>
            Out(Say(Echo, "  " + k + " => " + Show(DeployPayload(app, version)[k]))) in r)
      && (!readOnly ==> Sends(r) == 1 && r[|r| - 1] == Send(profile, UpdateEnvironment(DeployPayload(app, version))))
  {
    var payload := DeployPayload(app, version);
    var head := [Say(Info, "[profile:" + profile + "]"), Say(Echo, "Deploy version " + Show(app) + ":" + Show(version))];
    if readOnly {
      var report := ReadOnlyReport("READ_ONLY: Update EB environment:", payload, order);
      ReportSendsNothing(head, report);
      ReportListed(head, "READ_ONLY: Update EB environment:", payload, order);
    } else {
      LiveSendsOnce(head, profile, UpdateEnvironment(payload));
    }
  }

  /** A version registration changes the platform exactly when its call
      sends a request. */
  lemma CreateVersionMutatesIffSends(profile: string, app: Option<string>, version: Option<string>, bucket: string, key: string,
                                     readOnly: bool, order: seq<string>)
    requires IteratesOver(order, CreateVersionPayload(app, version, bucket, key))
    ensures Mutates(CreateVersion(profile, app, version, bucket, key), readOnly) <==>
      Sends(CreateVersionEvents(profile, app, version, bucket, key, readOnly, order)) > 0
  {
    CreateVersionRequests(profile, app, version, bucket, key, readOnly, order);
  }

  /** A deployment changes the platform exactly when its call sends a request. */
  lemma DeployVersionMutatesIffSends(profile: string, app: Option<string>, version: Option<string>, readOnly: bool, order: seq<string>)
    requires IteratesOver(order, DeployPayload(app, version))
    ensures Mutates(DeployVersion(profile, app, version), readOnly) <==>
      Sends(DeployVersionEvents(profile, app, version, readOnly, order)) > 0
  {
    DeployVersionRequests(profile, app, version, readOnly, order);
  }

  /** What `list_versions` asks the platform for: the applications when no app
      is given, otherwise that application's versions. */
  datatype Listing = Applications | VersionsOf(app: string)

  function ListingFor(app: Option<string>): (r: Listing)
    ensures r == Applications <==> app.None?
    ensures app.Some? ==> r == VersionsOf(app.value)
  {
    match app
    case None => Applications
    case Some(a) => VersionsOf(a)
  }

  /** One option setting of an environment's configuration. */
  datatype Setting = Setting(namespace: string, name: string, value: string)

  const EnvNamespace: string := "aws:elasticbeanstalk:application:environment"

  predicate Defines(s: Setting, name: string) {
    s.namespace == EnvNamespace && s.name == name
  }

  /** The environment `describe_env` inspects: the version when given, else
      one named after the application. */
  function EnvironmentName(app: Option<string>, version: Option<string>): (r: Option<string>)
    ensures version.Some? ==> r == version
    ensures version.None? ==> r == app
  {
    if version.None? then app else version
  }

  /** The environment variables among the settings: the dict comprehension
      of `describe_env`, which keeps the application environment namespace
      only, a later setting of a name overriding an earlier one. */
  function EnvVars(settings: seq<Setting>): map<string, string>
    decreases |settings|
  {
    if |settings| == 0 then map[]
    else
      var last := settings[|settings| - 1];
      var earlier := EnvVars(settings[..|settings| - 1]);
      if last.namespace == EnvNamespace then earlier[last.name := last.value] else earlier
  }

  /** The position of the setting that decides variable `k`: the last one defining it. */
  predicate LastDefinition(settings: seq<Setting>, k: string, i: int) {
    && 0 <= i < |settings|
    && Defines(settings[i], k)
    && forall j :: i < j < |settings| ==> !Defines(settings[j], k)
  }

  /** A name is a variable exactly when some setting in the namespace defines
      it, and its value is that of the last such setting. */
  lemma {:induction false} EnvVarsLastWins(settings: seq<Setting>, k: string)
    ensures k in EnvVars(settings) <==> exists i :: 0 <= i < |settings| && Defines(settings[i], k)
    ensures k in EnvVars(settings) ==> exists i :: LastDefinition(settings, k, i) && EnvVars(settings)[k] == settings[i].value
    decreases |settings|
  {
    if |settings| > 0 {
      var n := |settings| - 1;
      var init := settings[..n];
      EnvVarsLastWins(init, k);
      assert forall i :: 0 <= i < n ==> init[i] == settings[i];
      if Defines(settings[n], k) {
        assert LastDefinition(settings, k, n);
      } else if k in EnvVars(settings) {
        var i :| LastDefinition(init, k, i) && EnvVars(init)[k] == init[i].value;
        assert LastDefinition(settings, k, i);
      } else {
        assert k !in EnvVars(init);
      }
    }
  }

  /** One running instance: its id and private address (None when it has none). */
  datatype Instance = Instance(id: string, privateIp: Option<string>)

  /** The inventory line of one instance. */
  function InventoryLine(app: Option<string>, i: Instance): string {
    Show(app) + "-" + i.id + "\t" + SshHostField + Show(i.privateIp) + "\t" + SshUserField
  }

  /** The fixed parts of an inventory line's second and third fields. */
  const SshHostField: string := "ansible_ssh_host="
  const SshUserField: string := "ansible_ssh_user=ec2-user"

  lemma FixedFieldsTabFree()
    ensures '\t' !in SshHostField && '\t' !in SshUserField
  {
  }

  /** `describe_instances` output for the platform's answer: when the
      resource request fails, only its error message; otherwise a `[app]` group
      header, then one inventory line per instance, in the order returned. */
  function Inventory(app: Option<string>, response: Result<seq<Instance>, string>): (r: seq<Emit>)
    ensures response.Err? ==> r == [Say(Error, response.error)]
    ensures response.Ok? ==> |r| == |response.value| + 1 && r[0] == Say(Echo, "[" + Show(app) + "]")
    ensures response.Ok? ==> forall i :: 0 <= i < |response.value| ==> r[i + 1] == Say(Echo, InventoryLine(app, response.value[i]))
  {
    match response
    case Err(message) => [Say(Error, message)]
    case Ok(instances) =>
      [Say(Echo, "[" + Show(app) + "]")] + seq(|instances|, i requires 0 <= i < |instances| => Say(Echo, InventoryLine(app, instances[i])))
  }

  /** Three fields joined by a separator none of them holds split back apart. */
  lemma SplitThree(a: string, b: string, c: string, sep: char)
    requires sep !in a && sep !in b && sep !in c
    ensures Text.Split(a + [sep] + b + [sep] + c, sep) == [a, b, c]
  {
    var tail := b + [sep] + c;
    assert Text.Split(tail, sep) == [b, c] by {
      Text.SplitWithout(b, sep);
      Text.SplitWithout(c, sep);
      Text.SplitConcat(b, c, sep);
    }
    assert Text.Split(a + [sep] + tail, sep) == [a] + [b, c] by {
      Text.SplitWithout(a, sep);
      Text.SplitConcat(a, tail, sep);
    }
    assert a + [sep] + b + [sep] + c == a + [sep] + tail;
  }

  /** Each inventory line has three tab-separated fields: the host name
      `<app>-<id>`, its address and the fixed login user. */
  lemma InventoryFields(app: Option<string>, i: Instance)
    requires '\t' !in Show(app) && '\t' !in i.id && '\t' !in Show(i.privateIp)
    ensures Text.Split(InventoryLine(app, i), '\t')
      == [Show(app) + "-" + i.id, "ansible_ssh_host=" + Show(i.privateIp), "ansible_ssh_user=ec2-user"]
  {
    var host := Show(app) + "-" + i.id;
    var addr := SshHostField + Show(i.privateIp);
    var line := InventoryLine(app, i);
    assert line == host + ['\t'] + addr + ['\t'] + SshUserField;
    FixedFieldsTabFree();
    assert '\t' !in host && '\t' !in addr;
    SplitThree(host, addr, SshUserField, '\t');
  }

  /** One operation the main routine invokes, with the arguments it passes. */
  datatype Invocation =
    | ListProfiles(format: string)
    | UploadSourceBundle(profile: string, bundle: Bundle)
    | CreateVersion(profile: string, app: Option<string>, version: Option<string>, bucket: string, key: string)
    | DeployVersion(profile: string, app: Option<string>, version: Option<string>)
    | ListVersions(profile: string, app: Option<string>, format: string)
    | DescribeEnv(profile: string, app: Option<string>, version: Option<string>, format: string)
    | DescribeInstances(profile: string, app: Option<string>)

  /** Whether the invocation changes the platform or the object store. */
  predicate Mutates(inv: Invocation, readOnly: bool) {
    match inv
    case UploadSourceBundle(_, bundle) => bundle.write == Store
    case CreateVersion(_, _, _, _, _) => !readOnly
    case DeployVersion(_, _, _) => !readOnly
    case _ => false
  }

  /** The profile an invocation works under, if any. */
  function ProfileOf(inv: Invocation): Option<string> {
    if inv.ListProfiles? then None else Some(inv.profile)
  }

  /** `-f` as the scripts receive it: argparse's default is text. */
  function FormatArg(args: Args): string {
    args.format.GetOr("text")
  }

  /** The version registrations `create` makes, one per profile, in order,
      each from the bucket `bucketOf` gives for the profile and the same key. */
  function Registrations(profiles: seq<string>, target: Target, bucketOf: string -> string, key: string): (r: seq<Invocation>)
    ensures |r| == |profiles|
    ensures forall i :: 0 <= i < |r| ==> r[i] == CreateVersion(profiles[i], target.app, target.version, bucketOf(profiles[i]), key)
  {
    seq(|profiles|, i requires 0 <= i < |profiles| => CreateVersion(profiles[i], target.app, target.version, bucketOf(profiles[i]), key))
  }

  /** One invocation of a per-profile verb for each selected profile, in order. */
  function PerProfile(action: Action, profiles: seq<string>, target: Target, format: string): (r: seq<Invocation>)
    requires action == List || action == Env || action == Instances
    ensures |r| == |profiles|
    ensures forall i :: 0 <= i < |r| ==> ProfileOf(r[i]) == Some(profiles[i])
    ensures action == List ==> forall i :: 0 <= i < |r| ==> r[i] == ListVersions(profiles[i], target.app, format)
    ensures action == Env ==> forall i :: 0 <= i < |r| ==> r[i] == DescribeEnv(profiles[i], target.app, target.version, format)
    ensures action == Instances ==> forall i :: 0 <= i < |r| ==> r[i] == DescribeInstances(profiles[i], target.app)
  {
    seq(|profiles|, i requires 0 <= i < |profiles| =>
      match action
      case List => ListVersions(profiles[i], target.app, format)
      case Env => DescribeEnv(profiles[i], target.app, target.version, format)
      case _ => DescribeInstances(profiles[i], target.app))
  }
}
